=== FILE: README.md ===
# ops-dhcp-tftp in Dafny

A Dafny model of the DHCP/TFTP helper of OpenSwitch. The model covers five parts:

- the address classifiers used by the schema validators (`IpAddress`);
- the field checks and the per-table validators, in their current and older versions (`FieldChecks`, `RangeCheck`, `RangeCheckOld`, `StaticHostCheck`, `StaticHostCheckOld`, `OptionCheck`, `MatchCheck`, `BootpCheck`, `TftpCheck`);
- `dhcp_tftp_get_config`, the builder that turns a database snapshot into the dnsmasq command line (`CommandLine`);
- the daemon's reconciliation loop. It is a state machine over `seqno`, `dnsmasq_started` and `dhcp_range_config` that asks for abstract start, kill and lease-clear actions (`Supervisor`);
- the `dhcp_leases` hook that dnsmasq calls (`LeaseHook`), and the lease table it edits (`LeaseDb`).

Shared pieces:

- `Wrappers` holds `Option`, `Result`, the validator verdict `Outcome`, and small sequence helpers.
- `Rows` holds the database rows and snapshot.
- `Decimal` holds Python's `str` on integers, with its parse-back.

The lease hook's `add` always inserts a new row, even for a MAC that already has one. It is not an insert-or-replace, and only `old` updates in place. Where descriptions of the program say otherwise, the model follows the code.

The daemon does not stop dnsmasq when it exits. After its loop, `main` only closes the control socket and the database connection, so a stopped daemon asks for no kill action. This follows the code, not a general description of the program.

Conventions:

- A database column that may be missing is an `Option<seq<T>>`. `None` means the column is absent. `Some(list)` is the list of values OVSDB returns.
- Table iteration order is the order of the sequence.
- Helpers whose source is not available are carried in an `Oracles` value of function parameters. These are `ip_type`, `is_valid_netmask`, `is_valid_net`, `is_valid_broadcast_addr`, `macaddress.is_valid_mac_address`, `os.path.isdir`, and the `%s` rendering of a list. Each property holds for every such oracle.

## Model

| member | source | states |
|---|---|---|
| IpAddress.Ipv6ToIntHalves | opsplugins/ipaddress.py:44-46 | the top 64 bits of the 128-bit result are `hi` and the low 64 bits are `lo` |
| IpAddress.Ipv6ToIntValue | opsplugins/ipaddress.py:44-46 | the joined value is hi * 2^64 + lo, so the 128-bit width loses nothing |
| IpAddress.IsLoopbackIpv4 | opsplugins/ipaddress.py:60-61 | holds iff the first octet is 127 or 255: the mask also catches 255.x.x.x |
| IpAddress.IsMulticastIpv4 | opsplugins/ipaddress.py:64-65 | holds iff the first octet is in 224..239 |
| IpAddress.IsExperimentalIpv4 | opsplugins/ipaddress.py:68-69 | holds iff the first octet is 240 or more |
| IpAddress.IsValidIpv4 | opsplugins/ipaddress.py:49-81 | accepts iff the first octet is below 224 and not 127, and the last octet is neither 0 nor 255; so 0, 0xffffffff, 224/4 and 240/4 are all refused |
| IpAddress.ValidIpv4Quad | opsplugins/ipaddress.py:49-81 | on a.b.c.d, validity depends only on a and d: a < 224, a != 127, d != 0, d != 255 |
| IpAddress.Ipv4Examples | opsplugins/ipaddress.py:49-81 | 10.0.0.1 and 192.168.0.1 are valid; 127.0.0.1, 255.1.2.3, 224.0.0.5, 10.0.0.0 and 10.0.0.255 are not |
| IpAddress.In6IsAddrSitelocal | opsplugins/ipaddress.py:98-100 | holds iff the top ten bits are those of fec0::/10 or of ffc0::/10 |
| IpAddress.In6IsAddrMulticast | opsplugins/ipaddress.py:103-105 | holds iff the top byte is 0xff |
| IpAddress.In6IsAddrLinklocal | opsplugins/ipaddress.py:108-110 | holds iff the top ten bits are those of fe80::/10 or of ff80::/10, so all of fe80::/10 is link-local |
| IpAddress.IsIpv6GlobalUnicast | opsplugins/ipaddress.py:84-110 | refuses exactly ::, ::1, ff00::/8 and fe80::/9 |
| IpAddress.IsValidIpAddress | opsplugins/ipaddress.py:21-37 | an IPv4 parse is judged only by `is_valid_ipv4`; an IPv6 parse only by `is_ipv6_global_unicast`; an unparsable text is refused |
| IpAddress.Ipv6Verdict | opsplugins/ipaddress.py:21-46 | an IPv6 parse is refused iff it is :: or ::1, its top byte is 0xff, or its top nine bits are those of fe80::/9 |
| FieldChecks.TagsAreTagwise | opsplugins/dhcptftpservervalidations.py:22-33 | the list check accepts iff every element passes the single-tag check (at most 15 characters); the empty list passes |
| FieldChecks.IsValidTags | opsplugins/dhcptftpservervalidations.py:22-26 | accepts iff every tag has at most 15 characters |
| FieldChecks.SingleTag | opsplugins/dhcptftpservervalidations.py:22-33 | a one-tag list is judged exactly as its tag |
| FieldChecks.IsValidOptionNumber | opsplugins/dhcptftpservervalidations.py:36-40 | accepts iff the number is at most 254 |
| FieldChecks.IsValidLeaseDuration | opsplugins/dhcptftpservervalidations.py:43-47 | accepts iff the duration is not 1 and at most 65535 (0, 2..65535 and negatives) |
| FieldChecks.IsValidMacAddresses | opsplugins/dhcptftpservervalidations.py:50-54 | accepts iff every MAC satisfies the MAC predicate; the empty list passes |
| RangeCheck.FirstFailingGuardWins | opsplugins/dhcpsrv_range.py:43-175 | a pool is accepted iff all 14 guards hold; a refusal names a failing guard and every earlier guard holds (name, start, each end, lease, family, set tag, match tags, netmask, same net, IPv6 netmask, broadcast value, broadcast without netmask, IPv6 broadcast, IPv4 prefix) |
| RangeCheck.LongNameRefusedFirst | opsplugins/dhcpsrv_range.py:44-48 | a name over 15 characters gives `"<name> is invalid."` whatever the rest of the row |
| RangeCheck.BadLeaseRefused | opsplugins/dhcpsrv_range.py:68-78 | with name and addresses valid, any lease of 1 or above 65535 gives the lease-duration message |
| RangeCheck.FamilyMismatchRefused | opsplugins/dhcpsrv_range.py:80-84 | start and last end of different families give `"Invalid IP address range"` once the earlier guards pass |
| RangeCheck.NetmaskForIpv6Refused | opsplugins/dhcpsrv_range.py:124-128 | an IPv6 start with a netmask gives the IPv6-netmask message once the earlier guards pass |
| RangeCheck.BroadcastWithoutNetmaskRefused | opsplugins/dhcpsrv_range.py:148-153 | a broadcast with no netmask gives the broadcast-needs-netmask message once the earlier guards pass |
| RangeCheck.BroadcastForIpv6Unreachable | opsplugins/dhcpsrv_range.py:155-160 | the IPv6-broadcast refusal never happens: its guard implies the IPv6-netmask guard |
| RangeCheck.PrefixForIpv4Refused | opsplugins/dhcpsrv_range.py:170-175 | a prefix length with an end and a non-IPv6 start gives the IPv4-prefix message once the earlier guards pass |
| RangeCheckOld.LeaseChecksAgree | opsplugins/DHCPSrv_Range.py:55-59 | the class's lease check refuses exactly 1 and values above 65535, and agrees with the shared helper |
| RangeCheckOld.Verdicts | opsplugins/DHCPSrv_Range.py:27-53 | an invalid start gives `"<start> is invalid."`; then a present invalid end gives `"<end> is invalid."`; then a bad lease gives the lease message; otherwise accepted |
| RangeCheckOld.OnlyAddressesAndLease | opsplugins/DHCPSrv_Range.py:27-53 | two rows with the same start, end and lease get the same verdict: no other column is examined |
| StaticHostCheck.FirstFailingGuardWins | opsplugins/dhcpsrv_static_host.py:28-97 | a host is accepted iff all 7 guards hold; a refusal names a failing guard and every earlier guard holds |
| StaticHostCheck.InvalidIpRefusedFirst | opsplugins/dhcpsrv_static_host.py:36-41 | an invalid IP gives `"<ip> is an invalid IP address."` before any other check |
| StaticHostCheck.BadMacRefused | opsplugins/dhcpsrv_static_host.py:43-50 | with a valid IP, one malformed MAC in a present list gives `"Invalid MAC addresses."` |
| StaticHostCheck.LongSetTagRefused | opsplugins/dhcpsrv_static_host.py:52-59 | after the IP and MAC checks, any set tag over 15 characters gives `"<set_tags> is invalid."` |
| StaticHostCheck.HostnameBeforeClientId | opsplugins/dhcpsrv_static_host.py:61-79 | the first over-long hostname is reported, before any client id is examined |
| StaticHostCheck.NoIdentifierRefused | opsplugins/dhcpsrv_static_host.py:81-85 | with MAC, hostname and client id all absent, the row is refused with the any-one-identifier message |
| StaticHostCheck.BadLeaseAfterPresence | opsplugins/dhcpsrv_static_host.py:87-97 | once the first six guards pass, a bad lease gives the lease-duration message |
| StaticHostCheckOld.IsValidMacAddresses | opsplugins/DHCPSrv_Static_Host.py:45-49 | accepts iff every MAC is valid; the empty list passes |
| StaticHostCheckOld.MacChecksAgree | opsplugins/DHCPSrv_Static_Host.py:45-49 | the class's MAC check and the shared helper agree on every list |
| StaticHostCheckOld.Verdicts | opsplugins/DHCPSrv_Static_Host.py:28-43 | an invalid IP is refused first; then a bad MAC list; a valid IP with no MAC column is accepted (no identifier is required) |
| OptionCheck.AcceptedIff | opsplugins/dhcpsrv_option.py:27-58 | an option row is accepted iff every name and match tag has at most 15 characters and every number is at most 254 |
| OptionCheck.CheckOrder | opsplugins/dhcpsrv_option.py:33-58 | an over-long name is reported first, then over-long match tags, then the first number of 255 or more, each with its own message |
| OptionCheck.NothingRequired | opsplugins/dhcpsrv_option.py:27-58 | a row with no name, no number and no tags is accepted |
| MatchCheck.AcceptedIff | opsplugins/dhcpsrv_match.py:27-54 | a match row is accepted iff the set tag and every name have at most 15 characters and every number is at most 254 |
| MatchCheck.CheckOrder | opsplugins/dhcpsrv_match.py:31-54 | an over-long set tag is reported before any option column, then an over-long name, then a number of 255 or more |
| MatchCheck.SetTagAlone | opsplugins/dhcpsrv_match.py:27-54 | a valid set tag with no name and no number is accepted |
| BootpCheck.Verdicts | opsplugins/dhcp_server_bootp.py:28-36 | no bootp column, or no "match tag" key, is accepted; the row is refused iff the "match tag" value exceeds 15 characters, with `"<value> is invalid."` |
| TftpCheck.NoPathAccepted | opsplugins/tftp_server.py:29-35 | a system row with no other_config or no tftp_server_path key is accepted |
| TftpCheck.RelativePathRefused | opsplugins/tftp_server.py:34-46 | a path not starting with '/' is refused for every directory oracle, with the does-not-exist message |
| TftpCheck.AbsolutePathVerdict | opsplugins/tftp_server.py:34-46 | an absolute path is accepted iff it names a directory |
| Decimal.IntRoundTrip | ops_dhcp_tftp.py:240-250 | the decimal text that `str` gives for a prefix length or lease reads back as the same integer |
| Decimal.IntToStringInjective | ops_dhcp_tftp.py:240-250 | different integers never get the same decimal text |
| CommandLine.BuildOutcome | ops_dhcp_tftp.py:183-405 | a successful build is the default command followed by the argument strings, so it always starts with the fixed prefix |
| CommandLine.SectionOrder | ops_dhcp_tftp.py:206-398 | the arguments come as pools, hosts, options, matches, boot files, TFTP flags; each block carries only its own flag |
| CommandLine.SectionFlags | ops_dhcp_tftp.py:206-380 | each pool, host, option, match and boot argument starts with its own dnsmasq flag |
| CommandLine.RangeFrame | ops_dhcp_tftp.py:211-254 | a pool's text is its `tag:` clauses, then its `set:` clauses, then the start address directly followed by `,<end>` when an end address is set, and it ends with the lease clause |
| CommandLine.DefaultPrefixOmitted | ops_dhcp_tftp.py:240-243 | a prefix length of 64 adds nothing to the pool text |
| CommandLine.StaticOnlyWhenTrue | ops_dhcp_tftp.py:224-232 | `is_static` false is the same as absent; true inserts exactly `,static` right after the start and end addresses, and the rest of the text is unchanged |
| CommandLine.LeaseClauseForm | ops_dhcp_tftp.py:245-250 | lease 0 gives `,infinite`; any other n gives `,<digits>m` whose digits read back as n |
| CommandLine.RangeExample | ops_dhcp_tftp.py:211-254 | a pool with three match tags, one set tag, start, end, netmask, broadcast and 60 minutes renders to the exact expected text |
| CommandLine.SinglePoolCommand | ops_dhcp_tftp.py:183-254 | a snapshot with only that pool builds the default command plus ` --dhcp-range=` and that text |
| CommandLine.HostFrame | ops_dhcp_tftp.py:273-307 | a host's text is its MACs, then `id:`, then `set:` clauses, then the IP, and it ends with `,<hostname>` (when set) directly followed by the lease clause |
| CommandLine.HostExample | ops_dhcp_tftp.py:273-307 | a host with MAC, client id, three set tags, IP, hostname and 60 minutes renders to the exact expected text |
| CommandLine.OptionTagsInFront | ops_dhcp_tftp.py:313-318 | an option's match tags are written first with the `set:` prefix |
| CommandLine.OptionKeyKinds | ops_dhcp_tftp.py:320-331 | `option6:` iff a name is present and ipv6 is true; `option:` iff a name is present otherwise; without a name the bare number, which reads back |
| CommandLine.MatchLayout | ops_dhcp_tftp.py:344-359 | a non-empty set tag puts `set:<tag>,` in front of the untagged text; the untagged text never starts `option6:`, starts `option:` iff the row has a name, and otherwise starts with the option number's decimal text |
| CommandLine.BootLayout | ops_dhcp_tftp.py:365-380 | the key `no_matching_tag` gives just the file name; any other key k gives `tag:k,<file>` |
| CommandLine.EnableTftpIff | ops_dhcp_tftp.py:386-391 | ` --enable-tftp ` appears iff an entry sets tftp_server_enable to "true" |
| CommandLine.TftpSecureIff | ops_dhcp_tftp.py:386-394 | ` --tftp-secure ` appears iff an entry sets tftp_server_secure to "true" |
| CommandLine.TftpRootIff | ops_dhcp_tftp.py:386-398 | ` --tftp-root=<p>` appears iff an entry sets tftp_server_path to the non-empty p |
| Supervisor.SystemStatus | ops_dhcp_tftp.py:122-148 | the system is configured iff some System row has a non-zero cur_cfg |
| Supervisor.StepInv | ops_dhcp_tftp.py:434-563 | each event keeps the invariant (start-up means not started, serving means started and tracked) and never un-starts dnsmasq |
| Supervisor.RunInv | ops_dhcp_tftp.py:526-563 | every sequence of events keeps the invariant |
| Supervisor.RunAdoptsSeqno | ops_dhcp_tftp.py:434-449 | `dnsmasq_run` adopts a changed seqno even when the system is not configured, and does nothing on an unchanged one |
| Supervisor.RunStartsOnlyIfConfigured | ops_dhcp_tftp.py:434-456 | dnsmasq is spawned, and counts as started, iff the seqno moved, the system is configured and the command builds |
| Supervisor.StartupClear | ops_dhcp_tftp.py:259-270 | the first start clears the leases iff no pool has been seen yet |
| Supervisor.SteadyRestartIff | ops_dhcp_tftp.py:540-563 | the steady loop restarts iff the seqno moved, killing tracked and stray dnsmasq first; afterwards seqno equals the database's |
| Supervisor.StartupExitDeferred | ops_dhcp_tftp.py:115-118 | an `exit` during start-up is kept pending and changes nothing else; the poll that starts dnsmasq then stops the daemon iff an exit is pending, and enters the steady loop otherwise (the socket is created at lines 519-524 and first served at 533-538) |
| Supervisor.HaltedStaysHalted | ops_dhcp_tftp.py:533-578 | after an exit request or a crash, no event changes anything |
| Supervisor.NoClearAfterStart | ops_dhcp_tftp.py:259-260 | once dnsmasq has started, no event sequence asks to clear the leases |
| Supervisor.QuietPollsDoNothing | ops_dhcp_tftp.py:526-550 | polls that show the same seqno change nothing and ask for nothing |
| LeaseDb.SetColumnValues | dhcp_lease_db.py:87-102 | each column the entry gives is overwritten; every column it leaves unset is unchanged |
| LeaseDb.SetColumnValuesIdempotent | dhcp_lease_db.py:87-102 | applying an entry twice is the same as once; an empty entry changes nothing |
| LeaseDb.FirstIndexOf | dhcp_lease_db.py:70-85 | none iff no row has the MAC; otherwise an index whose row has that MAC |
| LeaseDb.FindRowByMac | dhcp_lease_db.py:70-85 | found iff some row has the MAC, and then the first such row; when not found, the last row examined (none for an empty table) |
| LeaseDb.InsertRow | dhcp_lease_db.py:104-117 | always appends exactly one row built from the entry, even when the MAC is already present |
| LeaseDb.InsertAddsOne | dhcp_lease_db.py:104-117 | inserting an entry with MAC m adds one to the count of rows with m |
| LeaseDb.UpdateRow | dhcp_lease_db.py:119-134 | a present MAC: only the first such row changes and the length stays; an absent MAC: exactly `insert_row` |
| LeaseDb.UpdateKeepsOne | dhcp_lease_db.py:119-134 | updating a present MAC keeps its count; updating an absent one leaves exactly one row with it |
| LeaseDb.DeleteRow | dhcp_lease_db.py:136-152 | found iff some row has the MAC; not found: table unchanged, status UNCHANGED; found: exactly the first row with the MAC is removed, the rows before and after it keep their order and contents, status committed |
| LeaseDb.DeleteRemovesOne | dhcp_lease_db.py:136-152 | a delete removes exactly one row with the MAC and no row with any other MAC |
| LeaseDb.ClearDb | dhcp_lease_db.py:154-174 | the table ends empty; the status is UNCHANGED iff it was already empty |
| LeaseDb.AddOldDelLeavesNone | dhcp_lease_db.py:104-152 | add, then old, then del on a new MAC leaves no row with that MAC |
| LeaseHook.Decode | dhcp_leases.py:101-152 | fails iff argv has fewer than 2 or more than 6 entries, or has fields but no expiry in the environment |
| LeaseHook.DecodeFields | dhcp_leases.py:103-150 | MAC and expiry are filled iff there are more than 2 entries, IP iff more than 3, hostname iff more than 4, client id iff more than 5; every other field stays "*"; the fields rebuild argv |
| LeaseHook.Main | dhcp_leases.py:101-167 | an argv that does not decode is reported and leaves the table; a decoded one is handed with its fields to the command dispatch |
| LeaseHook.Dispatch | dhcp_leases.py:154-167 | no error iff the command is init, show, add, del, old or tftp; an error changes nothing; only init and show print; only add, del and old touch the table |
| LeaseHook.TooFewArgumentsDoNothing | dhcp_leases.py:109-111 | fewer than two argv entries is an error with no effect |
| LeaseHook.TftpAndUnknownLeaveTable | dhcp_leases.py:160-167 | tftp and unknown words leave the table and print nothing; only tftp is not an error |
| LeaseHook.Show | dhcp_leases.py:38-62 | one line per row, in table order |
| LeaseHook.ShowLineFields | dhcp_leases.py:30-62 | a shown line splits back into expiry, MAC, IP, hostname and client id, with "*" for each missing value |
| LeaseHook.SplitJoin | dhcp_leases.py:30-36 | space-joining fields that hold no blank splits back into the same fields |
| LeaseHook.AddThenShow | dhcp_leases.py:66-75 | after `add mac ip host` the table shows one more line, with expiry, mac, ip, host and "*" |
| LeaseHook.ClientLifecycle | dhcp_leases.py:154-161 | add, old and del for a new client: one row after add and after old, and none once deleted |
| LeaseHook.ClearIsRejected | dhcp_leases.py:154-167 | as written, `dhcp_leases clear` is an invalid command that leaves the table as it is |
| LeaseHook.MainWithClear | dhcp_leases.py:101-167 | the corrected hook: `clear` empties the table; every other argv is handled as before |
| LeaseHook.ClearEmptiesTable | dhcp_lease_db.py:154-174 | the argv the daemon uses for clearing empties the table without error in the corrected hook |

## Left out

- Process plumbing is not modelled. That covers `subprocess.Popen`, reading stderr, `ps -A` scanning, `os.kill`, argparse and daemonize for the daemon, the unixctl server and the poller. Starting, killing and clearing leases are abstract `Action`s, and polling is an `Event`.
- The OVSDB IDL, schema registration and transaction commits are not modelled. Tables are sequences. A commit status is `Unchanged` or `Committed`, and a failed commit is not modelled.
- Text parsing by `socket.inet_pton` and `struct.unpack` is not modelled. Address predicates take the parse result `V4(bv32) | V6(hi, lo) | Unparsable`.
- `ip_type`, `is_valid_netmask`, `is_valid_net`, `is_valid_broadcast_addr` and `macaddress.is_valid_mac_address` are not defined in the repository's files. They are function parameters with no assumed body. So is `os.path.isdir`.
- The `%s` rendering of a list in the set-tag and match-tags messages is the parameter `showList`.
- Logging (`vlog`) and the opsvalidator framework objects are not modelled.
- Dictionary and row iteration order is abstract in the source. The model fixes it as sequence order.
- The builder's crash on an option or match row with neither a name nor a number is modelled as an error. The daemon then counts as crashed, because the exception ends `main`.
- The daemon's restart-on-crash exit code is not modelled.
- LeaseHook.Decode: argparse's handling of arguments that start with a dash is not modelled. Every argv entry is taken as a positional value.
- Supervisor.Step: several exit requests and the replies to them are not modelled. A request during the start-up loop is a pending flag, served as soon as dnsmasq has been started.
- LeaseDb.UpdateRow: the transactions are not modelled. `update_row` opens a transaction and, when the MAC is absent, calls `insert_row`, which opens a second one on the same connection before the first is committed or aborted. The model treats this case as a plain insert. The database library that decides whether a second open transaction is allowed is not part of this model, so a failure there is not modelled.
- RangeCheckOld: the older validator reads `end_ip_address` and `lease_duration` as single values. Against the list-valued columns that the current validator iterates, its address check would hand a list to `inet_pton`. The resulting `TypeError` is not caught there, because `ipaddress.py` catches only `socket.error` around the IPv4 parse. The model does not include that exception path.
- IpAddress.Ipv6ToIntHalves: the "< 2^128" bound is carried by the type `bv128` rather than stated as a contract.

## Findings

| source | as written | input that shows it | evidently intended | confidence | as-written member | corrected member |
|---|---|---|---|---|---|---|
| dhcp_leases.py:154-167 | the dispatch has no `clear` branch, so the daemon's `/usr/bin/dhcp_leases clear` (ops_dhcp_tftp.py:259-261) is logged as an invalid command and the stale leases stay | argv `["/usr/bin/dhcp_leases", "clear"]` | `clear` empties the lease table through `clear_db` | not executed | LeaseHook.ClearIsRejected | LeaseHook.MainWithClear |

=== FILE: bootp_check.dfy ===
/** `DhcpTftpServerBootpValidator.validate_modification` of opsplugins/dhcp_server_bootp.py:
    only the "match tag" entry of the `bootp` dictionary is checked. */
module BootpCheck {
  import opened Wrappers
  import opened Rows
  import opened FieldChecks

  function ValidateModification(row: DhcpServerRow): Outcome<string> {
    if row.bootp.None? then Pass
    else
      var tag := Lookup(row.bootp.value, "match tag");
      if tag.Some? && !IsValidTag(tag.value) then Fail(tag.value + " is invalid.")
      else Pass
  }

  /** A row is refused iff its bootp dictionary holds a "match tag" entry over 15
      characters, and then the message names that value. A row without the column, or
      whose dictionary lacks the key, is accepted whatever its other entries hold. */
  lemma Verdicts(row: DhcpServerRow)
    ensures row.bootp.None? ==> ValidateModification(row) == Pass
    ensures row.bootp.Some? && (forall i :: 0 <= i < |row.bootp.value| ==> row.bootp.value[i].0 != "match tag")
            ==> ValidateModification(row) == Pass
    ensures ValidateModification(row).Fail? <==>
              row.bootp.Some? && exists v :: Lookup(row.bootp.value, "match tag") == Some(v) && |v| > 15
    ensures ValidateModification(row).Fail? ==>
              ValidateModification(row).error == Lookup(row.bootp.value, "match tag").value + " is invalid."
  {
  }
}

=== FILE: command_line.dfy ===
/** The dnsmasq command line `dhcp_tftp_get_config` of ops_dhcp_tftp.py assembles from a
    snapshot of the configuration tables: the fixed default command, then one argument per
    pool, reservation, option, match and boot entry, then the TFTP flags. An optional column
    contributes its first value when it has one (`if col: ... col[0]`). */
module CommandLine {
  import opened Wrappers
  import opened Rows
  import Decimal

  /** dnsmasq_default_command: no DNS port, run as root, this package's lease hook, no lease
      file. */
  const DefaultCommand: string :=
    "/usr/bin/dnsmasq --port=0 --user=root --dhcp-script=/usr/bin/dhcp_leases --leasefile-ro --log-facility=/tmp/dnsmasq.log "

  const RangeFlag: string := " --dhcp-range="
  const HostFlag: string := " --dhcp-host="
  const OptionFlag: string := " --dhcp-option="
  const MatchFlag: string := " --dhcp-match="
  const BootFlag: string := " --dhcp-boot="
  const EnableTftpFlag: string := " --enable-tftp "
  const TftpSecureFlag: string := " --tftp-secure "
  const TftpRootFlag: string := " --tftp-root="

  /** The builder's one failure: an option or match row with neither a name nor a number
      makes `dhcp_tftp_get_config` index `option_number[0]` of an empty list (an IndexError). */
  datatype BuildError = OptionWithoutNameOrNumber | MatchWithoutNameOrNumber

  /** The first value of a column, if it has one. */
  function First<T>(c: Column<T>): (r: Option<T>)
    ensures r.Some? <==> |Values(c)| > 0
  {
    if |Values(c)| > 0 then Some(Values(c)[0]) else None
  }

  /** `prefix + t + ','` for each t, in order. */
  function Clauses(prefix: string, items: seq<string>): string {
    if |items| == 0 then "" else prefix + items[0] + "," + Clauses(prefix, items[1..])
  }

  /** `',' + v` when the value is there. */
  function Field(v: Option<string>): string {
    match v
    case Some(s) => "," + s
    case None => ""
  }

  /** The lease clause: `,infinite` for 0, `,<n>m` otherwise, nothing without a lease. */
  function LeaseClause(lease: Option<int>): string {
    match lease
    case None => ""
    case Some(d) => if d == 0 then ",infinite" else "," + Decimal.IntToString(d) + "m"
  }

  /** The prefix-length clause; dnsmasq's default of 64 is left out. */
  function PrefixClause(prefixLen: Option<int>): string {
    match prefixLen
    case None => ""
    case Some(p) => if p != 64 then "," + Decimal.IntToString(p) else ""
  }

  /** The value of one --dhcp-range= argument. */
  function RangeOptions(r: RangeRow): string {
    Clauses("tag:", Values(r.matchTags)) + Clauses("set:", Values(r.setTag)) + r.startIp
    + Field(First(r.endIp))
    + (if First(r.isStatic) == Some(true) then ",static" else "")
    + Field(First(r.netmask)) + Field(First(r.broadcast))
    + PrefixClause(First(r.prefixLen)) + LeaseClause(First(r.leaseDuration))
  }

  /** The value of one --dhcp-host= argument. */
  function HostOptions(h: StaticHostRow): string {
    Clauses("", Values(h.macAddresses))
    + (match First(h.clientId) case Some(c) => "id:" + c + "," case None => "")
    + Clauses("set:", Values(h.setTags)) + h.ipAddress
    + Field(First(h.clientHostname)) + LeaseClause(First(h.leaseDuration))
  }

  /** The option selector: `option6:<name>` only for a named IPv6 option, `option:<name>` for
      another named one, the bare number otherwise. */
  function OptionKey(name: Option<string>, ipv6: bool, number: Option<int>): Option<string> {
    match name
    case Some(n) => Some((if ipv6 then "option6:" else "option:") + n)
    case None =>
      match number
      case Some(k) => Some(Decimal.IntToString(k))
      case None => None
  }

  /** The value of one --dhcp-option= argument. Match tags are emitted as `set:` clauses. */
  function OptionOptions(o: OptionRow): Result<string, BuildError> {
    var key := OptionKey(First(o.optionName), First(o.ipv6) == Some(true), First(o.optionNumber));
    if key.None? then Err(OptionWithoutNameOrNumber)
    else Ok(Clauses("set:", Values(o.matchTags)) + key.value + Field(First(o.optionValue)))
  }

  /** The value of one --dhcp-match= argument. */
  function MatchOptions(m: MatchRow): Result<string, BuildError> {
    var key := OptionKey(First(m.optionName), false, First(m.optionNumber));
    if key.None? then Err(MatchWithoutNameOrNumber)
    else Ok((if m.setTag != "" then "set:" + m.setTag + "," else "") + key.value + Field(First(m.optionValue)))
  }

  /** The value of one --dhcp-boot= argument: the untagged default entry passes the file
      alone. */
  function BootOptions(key: string, file: string): string {
    if key == "no_matching_tag" then file else "tag:" + key + "," + file
  }

  /** The flag one `other_config` entry of the System row contributes, if any. */
  function TftpFlag(key: string, value: string): Option<string> {
    if key == "tftp_server_enable" && value == "true" then Some(EnableTftpFlag)
    else if key == "tftp_server_secure" && value == "true" then Some(TftpSecureFlag)
    else if key == "tftp_server_path" && value != "" then Some(TftpRootFlag + value)
    else None
  }

  // ---------------------------------------------------------------------------------------
  // The sections of the command line.

  /** One flagged argument per row, in row order. */
  function Flagged<T>(flag: string, rows: seq<T>, render: T -> string): (args: seq<string>)
    ensures |args| == |rows|
    ensures forall i :: 0 <= i < |rows| ==> args[i] == flag + render(rows[i])
  {
    if |rows| == 0 then []
    else
      var tail := Flagged(flag, rows[1..], render);
      assert forall i :: 1 <= i < |rows| ==> rows[i] == rows[1..][i - 1];
      [flag + render(rows[0])] + tail
  }

  function RangeArgs(rs: seq<RangeRow>): (args: seq<string>)
    ensures |args| == |rs|
    ensures forall i :: 0 <= i < |rs| ==> args[i] == RangeFlag + RangeOptions(rs[i])
  {
    Flagged(RangeFlag, rs, RangeOptions)
  }

  function HostArgs(hs: seq<StaticHostRow>): (args: seq<string>)
    ensures |args| == |hs|
    ensures forall i :: 0 <= i < |hs| ==> args[i] == HostFlag + HostOptions(hs[i])
  {
    Flagged(HostFlag, hs, HostOptions)
  }

  /** One flagged argument per row, in row order; it fails iff some row cannot be rendered,
      with the error of the first such row. */
  function RenderAll<T>(flag: string, rows: seq<T>, render: T -> Result<string, BuildError>)
    : (r: Result<seq<string>, BuildError>)
    ensures r.Ok? <==> forall i :: 0 <= i < |rows| ==> render(rows[i]).Ok?
    ensures r.Ok? ==> |r.value| == |rows|
                      && forall i :: 0 <= i < |rows| ==> r.value[i] == flag + render(rows[i]).value
  {
    if |rows| == 0 then Ok([])
    else
      var head := render(rows[0]);
      var tail := RenderAll(flag, rows[1..], render);
      assert forall i :: 1 <= i < |rows| ==> rows[i] == rows[1..][i - 1];
      if head.Err? then Err(head.error)
      else if tail.Err? then Err(tail.error)
      else Ok([flag + head.value] + tail.value)
  }

  /** The option section; it fails iff some row has neither a name nor a number. */
  function OptionArgs(os: seq<OptionRow>): (r: Result<seq<string>, BuildError>)
    ensures r.Ok? <==> forall i :: 0 <= i < |os| ==> OptionOptions(os[i]).Ok?
    ensures r.Ok? ==> |r.value| == |os|
                      && forall i :: 0 <= i < |os| ==> r.value[i] == OptionFlag + OptionOptions(os[i]).value
  {
    RenderAll(OptionFlag, os, OptionOptions)
  }

  /** The match section; it fails iff some row has neither a name nor a number. */
  function MatchArgs(ms: seq<MatchRow>): (r: Result<seq<string>, BuildError>)
    ensures r.Ok? <==> forall i :: 0 <= i < |ms| ==> MatchOptions(ms[i]).Ok?
    ensures r.Ok? ==> |r.value| == |ms|
                      && forall i :: 0 <= i < |ms| ==> r.value[i] == MatchFlag + MatchOptions(ms[i]).value
  {
    RenderAll(MatchFlag, ms, MatchOptions)
  }

  /** The boot entries of every DHCP_Server row, in iteration order. */
  function BootEntries(servers: seq<DhcpServerRow>): seq<(string, string)> {
    if |servers| == 0 then []
    else (if servers[0].bootp.Some? then servers[0].bootp.value else []) + BootEntries(servers[1..])
  }

  function BootArgs(entries: seq<(string, string)>): (args: seq<string>)
    ensures |args| == |entries|
    ensures forall i :: 0 <= i < |entries| ==> args[i] == BootFlag + BootOptions(entries[i].0, entries[i].1)
  {
    Flagged(BootFlag, entries, (e: (string, string)) => BootOptions(e.0, e.1))
  }

  /** The `other_config` entries of every System row, in iteration order. */
  function ConfigEntries(systems: seq<SystemRow>): seq<(string, string)> {
    if |systems| == 0 then []
    else (if systems[0].otherConfig.Some? then systems[0].otherConfig.value else []) + ConfigEntries(systems[1..])
  }

  /** The TFTP flags, one per entry that contributes one. */
  function TftpArgs(entries: seq<(string, string)>): (args: seq<string>)
    ensures forall a :: a in args <==> exists i :: 0 <= i < |entries| && TftpFlag(entries[i].0, entries[i].1) == Some(a)
  {
    if |entries| == 0 then []
    else
      var flag := TftpFlag(entries[0].0, entries[0].1);
      var rest := TftpArgs(entries[1..]);
      assert forall a :: (exists i :: 0 <= i < |entries| && TftpFlag(entries[i].0, entries[i].1) == Some(a))
                         <==> flag == Some(a) || a in rest by {
        forall a ensures (exists i :: 0 <= i < |entries| && TftpFlag(entries[i].0, entries[i].1) == Some(a))
                         <==> flag == Some(a) || a in rest {
          if a in rest {
            var j :| 0 <= j < |entries[1..]| && TftpFlag(entries[1..][j].0, entries[1..][j].1) == Some(a);
            assert entries[j + 1] == entries[1..][j];
          }
          if exists i :: 0 <= i < |entries| && TftpFlag(entries[i].0, entries[i].1) == Some(a) {
            var i :| 0 <= i < |entries| && TftpFlag(entries[i].0, entries[i].1) == Some(a);
            if i > 0 { assert entries[i] == entries[1..][i - 1]; }
          }
        }
      }
      (if flag.Some? then [flag.value] else []) + rest
  }

  /** Every argument after the default command, section by section. */
  function Arguments(snap: Snapshot): Result<seq<string>, BuildError> {
    var options :- OptionArgs(snap.options);
    var matches :- MatchArgs(snap.matches);
    Ok(RangeArgs(snap.ranges) + HostArgs(snap.hosts) + options + matches
       + BootArgs(BootEntries(snap.servers)) + TftpArgs(ConfigEntries(snap.systems)))
  }

  /** The full dnsmasq command line. */
  function BuildCommand(snap: Snapshot): Result<string, BuildError> {
    var args :- Arguments(snap);
    Ok(DefaultCommand + Concat(args))
  }

  // ---------------------------------------------------------------------------------------
  // Properties

  predicate StartsWith(s: string, prefix: string) { |prefix| <= |s| && s[..|prefix|] == prefix }

  /** The build fails exactly when an option or match row names neither an option nor a
      number; otherwise the command starts with the default command. */
  lemma BuildOutcome(snap: Snapshot)
    ensures BuildCommand(snap).Err? <==>
              (exists i :: 0 <= i < |snap.options| && First(snap.options[i].optionName).None?
                                                  && First(snap.options[i].optionNumber).None?)
              || (exists i :: 0 <= i < |snap.matches| && First(snap.matches[i].optionName).None?
                                                      && First(snap.matches[i].optionNumber).None?)
    ensures BuildCommand(snap).Ok? ==> StartsWith(BuildCommand(snap).value, DefaultCommand)
  {
    if BuildCommand(snap).Ok? {
      var cmd := BuildCommand(snap).value;
      assert cmd[..|DefaultCommand|] == DefaultCommand;
    }
  }

  /** Every argument between positions lo and hi carries the flag. */
  predicate AllFlagged(args: seq<string>, lo: nat, hi: nat, flag: string)
    requires lo <= hi <= |args|
  {
    forall i :: lo <= i < hi ==> StartsWith(args[i], flag)
  }

  /** Section order: the arguments are the pools, then the reservations, options, matches
      and boot entries, one argument each and each with its own flag, then TFTP flags. */
  lemma SectionOrder(snap: Snapshot, args: seq<string>)
    requires Arguments(snap) == Ok(args)
    ensures var nr := |snap.ranges|;
            var nh := nr + |snap.hosts|;
            var no := nh + |snap.options|;
            var nm := no + |snap.matches|;
            var nb := nm + |BootEntries(snap.servers)|;
            && nb <= |args|
            && AllFlagged(args, 0, nr, RangeFlag)
            && AllFlagged(args, nr, nh, HostFlag)
            && AllFlagged(args, nh, no, OptionFlag)
            && AllFlagged(args, no, nm, MatchFlag)
            && AllFlagged(args, nm, nb, BootFlag)
            && args[nb..] == TftpArgs(ConfigEntries(snap.systems))
  {
    var ranges := RangeArgs(snap.ranges);
    var hosts := HostArgs(snap.hosts);
    var options := OptionArgs(snap.options).value;
    var matches := MatchArgs(snap.matches).value;
    var boots := BootArgs(BootEntries(snap.servers));
    var tftp := TftpArgs(ConfigEntries(snap.systems));
    assert args == ranges + hosts + options + matches + boots + tftp;
    SectionFlags(snap);
    Layout(ranges, hosts, options, matches, boots, tftp);
  }

  /** Every argument of a section carries that section's flag. */
  lemma SectionFlags(snap: Snapshot)
    requires Arguments(snap).Ok?
    ensures AllFlagged(RangeArgs(snap.ranges), 0, |snap.ranges|, RangeFlag)
    ensures AllFlagged(HostArgs(snap.hosts), 0, |snap.hosts|, HostFlag)
    ensures AllFlagged(OptionArgs(snap.options).value, 0, |snap.options|, OptionFlag)
    ensures AllFlagged(MatchArgs(snap.matches).value, 0, |snap.matches|, MatchFlag)
    ensures AllFlagged(BootArgs(BootEntries(snap.servers)), 0, |BootEntries(snap.servers)|, BootFlag)
  {
    forall j | 0 <= j < |snap.ranges| ensures StartsWith(RangeArgs(snap.ranges)[j], RangeFlag) {
      FlagPrefix(RangeFlag, RangeOptions(snap.ranges[j]));
    }
    forall j | 0 <= j < |snap.hosts| ensures StartsWith(HostArgs(snap.hosts)[j], HostFlag) {
      FlagPrefix(HostFlag, HostOptions(snap.hosts[j]));
    }
    forall j | 0 <= j < |snap.options| ensures StartsWith(OptionArgs(snap.options).value[j], OptionFlag) {
      FlagPrefix(OptionFlag, OptionOptions(snap.options[j]).value);
    }
    forall j | 0 <= j < |snap.matches| ensures StartsWith(MatchArgs(snap.matches).value[j], MatchFlag) {
      FlagPrefix(MatchFlag, MatchOptions(snap.matches[j]).value);
    }
    var entries := BootEntries(snap.servers);
    forall j | 0 <= j < |entries| ensures StartsWith(BootArgs(entries)[j], BootFlag) {
      FlagPrefix(BootFlag, BootOptions(entries[j].0, entries[j].1));
    }
  }

  /** Flags of the five flagged blocks survive their concatenation with the TFTP block. */
  lemma Layout(a: seq<string>, b: seq<string>, c: seq<string>, d: seq<string>, e: seq<string>,
               f: seq<string>)
    requires AllFlagged(a, 0, |a|, RangeFlag) && AllFlagged(b, 0, |b|, HostFlag)
    requires AllFlagged(c, 0, |c|, OptionFlag) && AllFlagged(d, 0, |d|, MatchFlag)
    requires AllFlagged(e, 0, |e|, BootFlag)
    ensures var args := a + b + c + d + e + f;
            var nr := |a|;
            var nh := nr + |b|;
            var no := nh + |c|;
            var nm := no + |d|;
            var nb := nm + |e|;
            && AllFlagged(args, 0, nr, RangeFlag)
            && AllFlagged(args, nr, nh, HostFlag)
            && AllFlagged(args, nh, no, OptionFlag)
            && AllFlagged(args, no, nm, MatchFlag)
            && AllFlagged(args, nm, nb, BootFlag)
            && args[nb..] == f
  {
    var args := a + b + c + d + e + f;
    BlockFlags(args, 0, a, RangeFlag);
    BlockFlags(args, |a|, b, HostFlag);
    BlockFlags(args, |a| + |b|, c, OptionFlag);
    BlockFlags(args, |a| + |b| + |c|, d, MatchFlag);
    BlockFlags(args, |a| + |b| + |c| + |d|, e, BootFlag);
  }

  lemma BlockFlags(args: seq<string>, lo: nat, block: seq<string>, flag: string)
    requires lo + |block| <= |args| && args[lo..lo + |block|] == block
    requires AllFlagged(block, 0, |block|, flag)
    ensures AllFlagged(args, lo, lo + |block|, flag)
  {
    forall i | lo <= i < lo + |block| ensures StartsWith(args[i], flag) {
      assert args[i] == block[i - lo];
    }
  }

  lemma FlagPrefix(flag: string, value: string)
    ensures StartsWith(flag + value, flag)
  {
    assert (flag + value)[..|flag|] == flag;
  }

  // ---------------------------------------------------------------------------------------
  // Argument layout

  predicate EndsWith(s: string, suffix: string) {
    |suffix| <= |s| && s[|s| - |suffix|..] == suffix
  }

  /** The clauses of a list are the clauses of its parts, in order. */
  lemma {:induction false} ClausesAppend(prefix: string, a: seq<string>, b: seq<string>)
    ensures Clauses(prefix, a + b) == Clauses(prefix, a) + Clauses(prefix, b)
  {
    if |a| == 0 {
      assert a + b == b;
    } else {
      assert (a + b)[1..] == a[1..] + b;
      ClausesAppend(prefix, a[1..], b);
    }
  }

  /** One item gives one clause: the prefix, the item and a closing comma. */
  lemma ClausesSingle(prefix: string, t: string)
    ensures Clauses(prefix, [t]) == prefix + t + ","
  {
  }

  /** The lease clause spells 0 as `infinite` and any other duration in minutes; the
      number in it reads back as the duration. */
  lemma LeaseClauseForm(d: int)
    ensures d == 0 ==> LeaseClause(Some(d)) == ",infinite"
    ensures d != 0 ==> var digits := LeaseClause(Some(d))[1..|LeaseClause(Some(d))| - 1];
                       && LeaseClause(Some(d)) == "," + digits + "m"
                       && Decimal.ParseInt(digits) == d
  {
    if d != 0 {
      var digits := Decimal.IntToString(d);
      assert LeaseClause(Some(d))[1..|LeaseClause(Some(d))| - 1] == digits;
      Decimal.IntRoundTrip(d);
    }
  }

  /** A pool argument opens with its `tag:` clauses, then its `set:` clauses, then the
      start address directly followed by `,<end>` when there is an end address, and closes
      with its lease clause. */
  lemma RangeFrame(r: RangeRow)
    ensures StartsWith(RangeOptions(r),
                       Clauses("tag:", Values(r.matchTags)) + Clauses("set:", Values(r.setTag)) + r.startIp
                       + Field(First(r.endIp)))
    ensures EndsWith(RangeOptions(r), LeaseClause(First(r.leaseDuration)))
  {
    var head := Clauses("tag:", Values(r.matchTags)) + Clauses("set:", Values(r.setTag)) + r.startIp
                + Field(First(r.endIp));
    assert RangeOptions(r)[..|head|] == head;
    var tail := LeaseClause(First(r.leaseDuration));
    assert RangeOptions(r)[|RangeOptions(r)| - |tail|..] == tail;
  }

  /** A prefix length of 64, dnsmasq's default, is left out: the argument is the one the
      pool would have without a prefix length. */
  lemma DefaultPrefixOmitted(r: RangeRow, rest: seq<int>)
    ensures RangeOptions(r.(prefixLen := Some([64] + rest))) == RangeOptions(r.(prefixLen := None))
  {
  }

  /** `,static` is added exactly when the first is_static value is true: a false flag
      leaves the argument as if the column were absent, a true one inserts `,static` right
      after the start and end addresses and changes nothing else. */
  lemma StaticOnlyWhenTrue(r: RangeRow, rest: seq<bool>)
    ensures RangeOptions(r.(isStatic := Some([false] + rest))) == RangeOptions(r.(isStatic := None))
    ensures var p := Clauses("tag:", Values(r.matchTags)) + Clauses("set:", Values(r.setTag)) + r.startIp
                     + Field(First(r.endIp));
            var without := RangeOptions(r.(isStatic := None));
            StartsWith(without, p)
            && RangeOptions(r.(isStatic := Some([true] + rest))) == p + ",static" + without[|p|..]
  {
    var p := Clauses("tag:", Values(r.matchTags)) + Clauses("set:", Values(r.setTag)) + r.startIp
             + Field(First(r.endIp));
    var q := Field(First(r.netmask)) + Field(First(r.broadcast))
             + PrefixClause(First(r.prefixLen)) + LeaseClause(First(r.leaseDuration));
    var r0, r1 := r.(isStatic := None), r.(isStatic := Some([true] + rest));
    assert r0.matchTags == r1.matchTags == r.matchTags && r0.setTag == r1.setTag == r.setTag;
    assert r0.startIp == r1.startIp == r.startIp && r0.endIp == r1.endIp == r.endIp;
    assert r0.netmask == r1.netmask == r.netmask && r0.broadcast == r1.broadcast == r.broadcast;
    assert r0.prefixLen == r1.prefixLen == r.prefixLen && r0.leaseDuration == r1.leaseDuration == r.leaseDuration;
    RangeOptionsParts(r0);
    RangeOptionsParts(r1);
    var without := RangeOptions(r0);
    assert without == p + "" + q;
    assert p + "" + q == p + q;
    assert without[..|p|] == p;
    assert without[|p|..] == q;
  }

  /** A proof step only: a pool's text cut around its `,static` clause. */
  lemma RangeOptionsParts(r: RangeRow)
    ensures RangeOptions(r)
            == Clauses("tag:", Values(r.matchTags)) + Clauses("set:", Values(r.setTag)) + r.startIp
               + Field(First(r.endIp))
               + (if First(r.isStatic) == Some(true) then ",static" else "")
               + (Field(First(r.netmask)) + Field(First(r.broadcast))
                  + PrefixClause(First(r.prefixLen)) + LeaseClause(First(r.leaseDuration)))
  {
    var a := Clauses("tag:", Values(r.matchTags)) + Clauses("set:", Values(r.setTag)) + r.startIp
             + Field(First(r.endIp))
             + (if First(r.isStatic) == Some(true) then ",static" else "");
    var n, b, x, l := Field(First(r.netmask)), Field(First(r.broadcast)), PrefixClause(First(r.prefixLen)),
                      LeaseClause(First(r.leaseDuration));
    assert a + n + b + x + l == a + (n + b + x + l);
  }

  /** A reservation argument opens with its MAC clauses, then `id:<client id>,`, then its
      `set:` clauses, then the address, and closes with `,<hostname>` (when there is one)
      directly followed by its lease clause. */
  lemma HostFrame(h: StaticHostRow)
    ensures var id := if First(h.clientId).Some? then "id:" + First(h.clientId).value + "," else "";
            StartsWith(HostOptions(h), Clauses("", Values(h.macAddresses)) + id
                                       + Clauses("set:", Values(h.setTags)) + h.ipAddress)
    ensures EndsWith(HostOptions(h), Field(First(h.clientHostname)) + LeaseClause(First(h.leaseDuration)))
  {
    var id := if First(h.clientId).Some? then "id:" + First(h.clientId).value + "," else "";
    var head := Clauses("", Values(h.macAddresses)) + id + Clauses("set:", Values(h.setTags)) + h.ipAddress;
    assert HostOptions(h)[..|head|] == head;
    var tail := Field(First(h.clientHostname)) + LeaseClause(First(h.leaseDuration));
    assert HostOptions(h)[|HostOptions(h)| - |tail|..] == tail;
  }

  /** The selector says `option6:` exactly for a named IPv6 option and `option:` exactly for
      another named one; without a name it is the number. */
  lemma OptionKeyKinds(name: Option<string>, ipv6: bool, number: Option<int>)
    ensures OptionKey(name, ipv6, number).Some? <==> name.Some? || number.Some?
    ensures OptionKey(name, ipv6, number).Some? ==>
              (StartsWith(OptionKey(name, ipv6, number).value, "option6:") <==> name.Some? && ipv6)
    ensures OptionKey(name, ipv6, number).Some? ==>
              (StartsWith(OptionKey(name, ipv6, number).value, "option:") <==> name.Some? && !ipv6)
    ensures name.None? && number.Some? ==>
              Decimal.ParseInt(OptionKey(name, ipv6, number).value) == number.value
  {
    match name
    case Some(n) =>
      var key := OptionKey(name, ipv6, number).value;
      if ipv6 {
        assert key[..8] == "option6:";
        assert key[6] == '6';
      } else {
        assert key[..7] == "option:";
        assert key[6] == ':';
      }
    case None =>
      if number.Some? {
        var s := Decimal.IntToString(number.value);
        assert s[0] == '-' || Decimal.IsDigit(s[0]);
        assert !StartsWith(s, "option6:") && !StartsWith(s, "option:") by {
          if |s| >= 7 { assert s[..7][0] == s[0]; }
        }
        Decimal.IntRoundTrip(number.value);
      }
  }

  /** An option's match tags are emitted as `set:` clauses in front of what the option
      would be without them; they do not decide whether the option builds. */
  lemma OptionTagsInFront(o: OptionRow, tags: seq<string>)
    ensures OptionOptions(o.(matchTags := Some(tags))).Ok? <==> OptionOptions(o.(matchTags := None)).Ok?
    ensures OptionOptions(o.(matchTags := None)).Ok? ==>
              OptionOptions(o.(matchTags := Some(tags))).value
              == Clauses("set:", tags) + OptionOptions(o.(matchTags := None)).value
  {
  }

  /** A match names its option `option:<name>` (never `option6:`) or, without a name, by its
      number, and a non-empty set tag puts `set:<tag>,` in front of what the match would be
      without one. */
  lemma MatchLayout(m: MatchRow, tag: string)
    requires tag != ""
    ensures MatchOptions(m.(setTag := "")).Ok? ==> !StartsWith(MatchOptions(m.(setTag := "")).value, "option6:")
    ensures MatchOptions(m.(setTag := "")).Ok? ==>
              (StartsWith(MatchOptions(m.(setTag := "")).value, "option:") <==> First(m.optionName).Some?)
    ensures MatchOptions(m.(setTag := "")).Ok? && First(m.optionName).None? ==>
              First(m.optionNumber).Some?
              && StartsWith(MatchOptions(m.(setTag := "")).value, Decimal.IntToString(First(m.optionNumber).value))
    ensures MatchOptions(m.(setTag := tag)).Ok? <==> MatchOptions(m.(setTag := "")).Ok?
    ensures MatchOptions(m.(setTag := "")).Ok? ==>
              MatchOptions(m.(setTag := tag)).value == "set:" + tag + "," + MatchOptions(m.(setTag := "")).value
  {
    var base, tagged := m.(setTag := ""), m.(setTag := tag);
    var key := OptionKey(First(m.optionName), false, First(m.optionNumber));
    var f := Field(First(m.optionValue));
    assert base.optionName == tagged.optionName == m.optionName;
    assert base.optionNumber == tagged.optionNumber == m.optionNumber;
    assert base.optionValue == tagged.optionValue == m.optionValue;
    MatchOptionsParts(base);
    MatchOptionsParts(tagged);
    if key.Some? {
      var k := key.value;
      assert "" + k + f == k + f;
      assert "set:" + tag + "," + k + f == "set:" + tag + "," + (k + f);
      MatchKeyNotIpv6(First(m.optionName), First(m.optionNumber), f);
    }
  }

  /** A proof step only: a match's text cut at its three parts, so that the lemmas above can
      reason about the parts without unfolding the record updates. */
  lemma MatchOptionsParts(m: MatchRow)
    ensures var key := OptionKey(First(m.optionName), false, First(m.optionNumber));
            MatchOptions(m) == if key.None? then Err(MatchWithoutNameOrNumber)
                               else Ok((if m.setTag != "" then "set:" + m.setTag + "," else "")
                                       + key.value + Field(First(m.optionValue)))
  {
  }

  /** What a match names its option with, followed by anything, never starts `option6:`; it
      starts `option:` exactly when there is a name, and otherwise with the number. */
  lemma MatchKeyNotIpv6(name: Option<string>, number: Option<int>, rest: string)
    requires OptionKey(name, false, number).Some?
    ensures !StartsWith(OptionKey(name, false, number).value + rest, "option6:")
    ensures StartsWith(OptionKey(name, false, number).value + rest, "option:") <==> name.Some?
    ensures name.None? ==> number.Some?
                           && StartsWith(OptionKey(name, false, number).value + rest, Decimal.IntToString(number.value))
  {
    var k := OptionKey(name, false, number).value;
    if name.Some? {
      assert k == "option:" + name.value;
      assert (k + rest)[6] == k[6] == ':';
      assert (k + rest)[..7] == "option:";
    } else {
      assert k == Decimal.IntToString(number.value);
      assert (k + rest)[0] == k[0];
      assert k[0] == '-' || Decimal.IsDigit(k[0]);
      assert (k + rest)[..|k|] == k;
    }
  }

  /** The untagged entry passes the boot file alone; any other key k gives `tag:k,<file>`. */
  lemma BootLayout(key: string, file: string)
    ensures BootOptions(key, file) == file <==> key == "no_matching_tag"
    ensures key != "no_matching_tag" ==>
              StartsWith(BootOptions(key, file), "tag:" + key + ",") && EndsWith(BootOptions(key, file), file)
  {
    if key != "no_matching_tag" {
      var b := BootOptions(key, file);
      assert b[..|"tag:" + key + ","|] == "tag:" + key + ",";
      assert b[|b| - |file|..] == file;
    }
  }

  /** The entries that contribute each TFTP flag. */
  lemma TftpFlagOf(k: string, v: string, p: string)
    ensures TftpFlag(k, v) == Some(EnableTftpFlag) <==> k == "tftp_server_enable" && v == "true"
    ensures TftpFlag(k, v) == Some(TftpSecureFlag) <==> k == "tftp_server_secure" && v == "true"
    ensures TftpFlag(k, v) == Some(TftpRootFlag + p) <==> k == "tftp_server_path" && v == p && p != ""
  {
    if k == "tftp_server_path" && v != "" {
      assert (TftpRootFlag + v)[3] == 't' && (TftpRootFlag + v)[8] == 'r';
      assert EnableTftpFlag[3] == 'e' && TftpSecureFlag[8] == 's';
      assert (TftpRootFlag + v)[|TftpRootFlag|..] == v;
    }
    assert (TftpRootFlag + p)[3] == 't' && (TftpRootFlag + p)[8] == 'r';
    assert (TftpRootFlag + p)[|TftpRootFlag|..] == p;
  }

  /** `--enable-tftp` is emitted iff some entry sets tftp_server_enable to "true". */
  lemma EnableTftpIff(entries: seq<(string, string)>)
    ensures EnableTftpFlag in TftpArgs(entries) <==>
              exists i :: 0 <= i < |entries| && entries[i] == ("tftp_server_enable", "true")
  {
    forall i | 0 <= i < |entries| { TftpFlagOf(entries[i].0, entries[i].1, ""); }
  }

  /** `--tftp-secure` is emitted iff some entry sets tftp_server_secure to "true". */
  lemma TftpSecureIff(entries: seq<(string, string)>)
    ensures TftpSecureFlag in TftpArgs(entries) <==>
              exists i :: 0 <= i < |entries| && entries[i] == ("tftp_server_secure", "true")
  {
    forall i | 0 <= i < |entries| { TftpFlagOf(entries[i].0, entries[i].1, ""); }
  }

  /** `--tftp-root=<p>` is emitted iff p is not empty and some entry sets tftp_server_path
      to p. */
  lemma TftpRootIff(entries: seq<(string, string)>, p: string)
    ensures TftpRootFlag + p in TftpArgs(entries) <==>
              p != "" && exists i :: 0 <= i < |entries| && entries[i] == ("tftp_server_path", p)
  {
    forall i | 0 <= i < |entries| { TftpFlagOf(entries[i].0, entries[i].1, p); }
  }

  // ---------------------------------------------------------------------------------------
  // Worked examples

  /** The pool with match tags tag1..tag3, set tag test-tag, addresses 10.0.0.1 to
      10.0.0.254, netmask 255.0.0.0, broadcast 10.255.255.255 and a 60-minute lease. */
  lemma RangeExample(r: RangeRow)
    requires r == RangeRow("pool1", "10.0.0.1", Some(["10.0.0.254"]), Some([60]), Some(["test-tag"]),
                           Some(["tag1", "tag2", "tag3"]), Some(["255.0.0.0"]), Some(["10.255.255.255"]),
                           None, None)
    ensures RangeOptions(r) == "tag:tag1,tag:tag2,tag:tag3,set:test-tag,10.0.0.1,10.0.0.254,255.0.0.0,10.255.255.255,60m"
  {
    SixtyMinutes(); PoolTagClauses(); PoolSetClauses();
    var end, mask, bcast := Field(First(r.endIp)), Field(First(r.netmask)), Field(First(r.broadcast));
    assert end == ",10.0.0.254" && mask == ",255.0.0.0" && bcast == ",10.255.255.255";
    var staticText, prefix, lease := (if First(r.isStatic) == Some(true) then ",static" else ""),
                                  PrefixClause(First(r.prefixLen)), LeaseClause(First(r.leaseDuration));
    assert staticText == "" && prefix == "" && lease == ",60m";
    assert RangeOptions(r) == Clauses("tag:", Values(r.matchTags)) + Clauses("set:", Values(r.setTag)) + r.startIp
                              + end + staticText + mask + bcast + prefix + lease;
    RangeExampleText(Clauses("tag:", Values(r.matchTags)), Clauses("set:", Values(r.setTag)), r.startIp,
                     end, staticText, mask, bcast, prefix, lease);
  }

  /** The pieces of the example pool, joined as the builder joins them. */
  lemma RangeExampleText(tags: string, sets: string, start: string, end: string, staticText: string,
                         mask: string, bcast: string, prefix: string, lease: string)
    requires tags == "tag:tag1,tag:tag2,tag:tag3," && sets == "set:test-tag," && start == "10.0.0.1"
    requires end == ",10.0.0.254" && staticText == "" && mask == ",255.0.0.0" && bcast == ",10.255.255.255"
    requires prefix == "" && lease == ",60m"
    ensures tags + sets + start + end + staticText + mask + bcast + prefix + lease
            == "tag:tag1,tag:tag2,tag:tag3,set:test-tag,10.0.0.1,10.0.0.254,255.0.0.0,10.255.255.255,60m"
  {
    assert start + end + staticText == start + end;
    assert mask + bcast + prefix + lease == mask + bcast + lease;
    RangeExampleText0(); RangeExampleText1(); RangeExampleText2(); RangeExampleText3();
    RangeExampleText4(); RangeExampleText5();
  }

  /** A pool alone in the tables gives the default command followed by its one range
      argument: the two leading dashes come after the default command's trailing blank and
      the flag's own leading blank. */
  lemma SinglePoolCommand(r: RangeRow)
    ensures BuildCommand(Snapshot([r], [], [], [], [], [])) == Ok(DefaultCommand + (RangeFlag + RangeOptions(r)))
  {
    var arg := RangeFlag + RangeOptions(r);
    assert RangeArgs([r]) == [arg];
    assert HostArgs([]) == [] && OptionArgs([]) == Ok([]) && MatchArgs([]) == Ok([]);
    assert BootArgs(BootEntries([])) == [] && TftpArgs(ConfigEntries([])) == [];
    assert [arg] + [] + [] + [] + [] + [] == [arg];
    assert Arguments(Snapshot([r], [], [], [], [], [])) == Ok([arg]);
    assert Concat([arg]) == arg + Concat([]);
    assert arg + "" == arg;
  }

  /** The reservation of 192.168.0.2 for MAC aa:bb:cc:dd:ee:ff with client id testid,
      tags tag4..tag6, hostname testname and a 60-minute lease. */
  lemma HostExample(h: StaticHostRow)
    requires h == StaticHostRow("192.168.0.2", Some(["aa:bb:cc:dd:ee:ff"]), Some(["tag4", "tag5", "tag6"]),
                                Some(["testname"]), Some(["testid"]), Some([60]))
    ensures HostOptions(h) == "aa:bb:cc:dd:ee:ff,id:testid,set:tag4,set:tag5,set:tag6,192.168.0.2,testname,60m"
  {
    SixtyMinutes(); HostMacClauses(); HostSetClauses();
    assert Field(First(h.clientHostname)) == ",testname";
    assert LeaseClause(First(h.leaseDuration)) == ",60m";
    assert First(h.clientId) == Some("testid");
    assert HostOptions(h) == "aa:bb:cc:dd:ee:ff," + "id:testid," + "set:tag4,set:tag5,set:tag6," + "192.168.0.2"
                             + ",testname" + ",60m";
    HostExampleText0(); HostExampleText1(); HostExampleText2(); HostExampleText3(); HostExampleText4();
  }

  // Clauses the examples need.
  lemma SixtyMinutes() ensures LeaseClause(Some(60)) == ",60m" {
    assert Decimal.NatToString(6) == "6";
  }
  lemma PoolTagClauses() ensures Clauses("tag:", ["tag1", "tag2", "tag3"]) == "tag:tag1,tag:tag2,tag:tag3," {}
  lemma PoolSetClauses() ensures Clauses("set:", ["test-tag"]) == "set:test-tag," {}
  lemma HostMacClauses() ensures Clauses("", ["aa:bb:cc:dd:ee:ff"]) == "aa:bb:cc:dd:ee:ff," {}
  lemma HostSetClauses() ensures Clauses("set:", ["tag4", "tag5", "tag6"]) == "set:tag4,set:tag5,set:tag6," {}

  // Proof steps only: the literal concatenations `RangeExample` and `HostExample` go through.
  // Each is a lemma of its own so that the examples' proofs stay small.

  // Literal concatenations the pool example needs.
  lemma RangeExampleText0() ensures "tag:tag1,tag:tag2,tag:tag3," + "set:test-tag," == "tag:tag1,tag:tag2,tag:tag3,set:test-tag," {}
  lemma RangeExampleText1() ensures "tag:tag1,tag:tag2,tag:tag3,set:test-tag," + "10.0.0.1" == "tag:tag1,tag:tag2,tag:tag3,set:test-tag,10.0.0.1" {}
  lemma RangeExampleText2() ensures "tag:tag1,tag:tag2,tag:tag3,set:test-tag,10.0.0.1" + ",10.0.0.254" == "tag:tag1,tag:tag2,tag:tag3,set:test-tag,10.0.0.1,10.0.0.254" {}
  lemma RangeExampleText3() ensures "tag:tag1,tag:tag2,tag:tag3,set:test-tag,10.0.0.1,10.0.0.254" + ",255.0.0.0" == "tag:tag1,tag:tag2,tag:tag3,set:test-tag,10.0.0.1,10.0.0.254,255.0.0.0" {}
  lemma RangeExampleText4() ensures "tag:tag1,tag:tag2,tag:tag3,set:test-tag,10.0.0.1,10.0.0.254,255.0.0.0" + ",10.255.255.255" == "tag:tag1,tag:tag2,tag:tag3,set:test-tag,10.0.0.1,10.0.0.254,255.0.0.0,10.255.255.255" {}
  lemma RangeExampleText5() ensures "tag:tag1,tag:tag2,tag:tag3,set:test-tag,10.0.0.1,10.0.0.254,255.0.0.0,10.255.255.255" + ",60m" == "tag:tag1,tag:tag2,tag:tag3,set:test-tag,10.0.0.1,10.0.0.254,255.0.0.0,10.255.255.255,60m" {}

  // Literal concatenations the reservation example needs.
  lemma HostExampleText0() ensures "aa:bb:cc:dd:ee:ff," + "id:testid," == "aa:bb:cc:dd:ee:ff,id:testid," {}
  lemma HostExampleText1() ensures "aa:bb:cc:dd:ee:ff,id:testid," + "set:tag4,set:tag5,set:tag6," == "aa:bb:cc:dd:ee:ff,id:testid,set:tag4,set:tag5,set:tag6," {}
  lemma HostExampleText2() ensures "aa:bb:cc:dd:ee:ff,id:testid,set:tag4,set:tag5,set:tag6," + "192.168.0.2" == "aa:bb:cc:dd:ee:ff,id:testid,set:tag4,set:tag5,set:tag6,192.168.0.2" {}
  lemma HostExampleText3() ensures "aa:bb:cc:dd:ee:ff,id:testid,set:tag4,set:tag5,set:tag6,192.168.0.2" + ",testname" == "aa:bb:cc:dd:ee:ff,id:testid,set:tag4,set:tag5,set:tag6,192.168.0.2,testname" {}
  lemma HostExampleText4() ensures "aa:bb:cc:dd:ee:ff,id:testid,set:tag4,set:tag5,set:tag6,192.168.0.2,testname" + ",60m" == "aa:bb:cc:dd:ee:ff,id:testid,set:tag4,set:tag5,set:tag6,192.168.0.2,testname,60m" {}
}

=== FILE: decimal.dfy ===
/** Python's `str()` of an integer, as the command line and the error messages print
    lease durations, prefix lengths and option numbers. */
module Decimal {

  predicate IsDigit(c: char) { '0' <= c <= '9' }

  function DigitChar(d: nat): (c: char)
    requires d < 10
    ensures IsDigit(c) && c as int - '0' as int == d
  {
    "0123456789"[d]
  }

  function DigitValue(c: char): nat
    requires IsDigit(c)
  {
    c as int - '0' as int
  }

  /** Decimal digits of `n`, most significant first, without leading zeros. */
  function NatToString(n: nat): (s: string)
    ensures |s| >= 1
    ensures forall i :: 0 <= i < |s| ==> IsDigit(s[i])
    ensures n > 0 ==> s[0] != '0'
    decreases n
  {
    if n < 10 then [DigitChar(n)] else NatToString(n / 10) + [DigitChar(n % 10)]
  }

  /** `str(i)`: a minus sign precedes the digits of a negative number. */
  function IntToString(i: int): (s: string)
    ensures |s| >= 1
    ensures (s[0] == '-') <==> i < 0
    ensures i >= 0 ==> IsDigit(s[0])
    ensures forall k :: 1 <= k < |s| ==> IsDigit(s[k])
  {
    if i < 0 then "-" + NatToString(-i) else NatToString(i)
  }

  /** The value of a string of decimal digits. */
  function ParseNat(s: string): nat
    requires forall i :: 0 <= i < |s| ==> IsDigit(s[i])
  {
    if |s| == 0 then 0 else ParseNat(s[..|s| - 1]) * 10 + DigitValue(s[|s| - 1])
  }

  /** The value of `str(i)` read back. */
  function ParseInt(s: string): int
    requires |s| >= 1
    requires s[0] == '-' ==> forall i :: 1 <= i < |s| ==> IsDigit(s[i])
    requires s[0] != '-' ==> forall i :: 0 <= i < |s| ==> IsDigit(s[i])
  {
    if s[0] == '-' then -(ParseNat(s[1..]) as int) else ParseNat(s)
  }

  /** Reading the digits back gives the number: the rendering loses nothing. */
  lemma {:induction false} NatRoundTrip(n: nat)
    ensures ParseNat(NatToString(n)) == n
    decreases n
  {
    var s := NatToString(n);
    if n >= 10 {
      NatRoundTrip(n / 10);
      assert s[..|s| - 1] == NatToString(n / 10);
    }
  }

  lemma {:induction false} IntRoundTrip(i: int)
    ensures ParseInt(IntToString(i)) == i
  {
    if i < 0 {
      var digits := NatToString(-i);
      var s := "-" + digits;
      assert s[1..] == digits;
      NatRoundTrip(-i);
      assert ParseInt(s) == -(ParseNat(digits) as int);
    } else {
      NatRoundTrip(i);
    }
  }

  /** Hence distinct numbers print differently. */
  lemma IntToStringInjective(i: int, j: int)
    requires IntToString(i) == IntToString(j)
    ensures i == j
  {
    IntRoundTrip(i);
    IntRoundTrip(j);
  }
}

=== FILE: field_checks.dfy ===
/** The shared field predicates of opsplugins/dhcptftpservervalidations.py. */
module FieldChecks {

  /** MAX_DHCP_CONFIG_NAME_LENGTH: the longest tag, name, hostname or client id accepted. */
  const MaxDhcpConfigNameLength: nat := 15

  /** The text every validator reports for a refused lease duration. */
  const LeaseMessage: string := "Lease duration should be 0 for infinite or between 2-65535."

  /** `is_valid_tag`. */
  predicate IsValidTag(tag: string) {
    if |tag| > MaxDhcpConfigNameLength then false else true
  }

  /** `is_valid_tags`: the loop returns False at the first over-long tag. It accepts exactly
      the lists all of whose tags are at most 15 characters long, the empty list among them. */
  predicate IsValidTags(tags: seq<string>)
    ensures IsValidTags(tags) <==> forall i :: 0 <= i < |tags| ==> |tags[i]| <= 15
  {
    if |tags| == 0 then true
    else if |tags[0]| > MaxDhcpConfigNameLength then false
    else IsValidTags(tags[1..])
  }

  /** `is_valid_option_number`: option codes fit in a byte and 255 (the end marker) is
      refused. */
  predicate IsValidOptionNumber(num: int)
    ensures IsValidOptionNumber(num) <==> num <= 254
  {
    if num >= 255 then false else true
  }

  /** `is_valid_lease_duration`: 0 (infinite) and 2..65535 are accepted; so is any negative
      value, since only 1 and values above 65535 are refused. */
  predicate IsValidLeaseDuration(d: int)
    ensures IsValidLeaseDuration(d) <==> d <= 0 || 2 <= d <= 65535
  {
    if d == 1 || d > 65535 then false else true
  }

  /** `is_valid_mac_addresses`, with `macaddress.is_valid_mac_address` as a parameter: every
      entry must pass; the empty list does. */
  predicate IsValidMacAddresses(macs: seq<string>, isValidMac: string -> bool)
    ensures IsValidMacAddresses(macs, isValidMac) <==> forall i :: 0 <= i < |macs| ==> isValidMac(macs[i])
  {
    if |macs| == 0 then true
    else if !isValidMac(macs[0]) then false
    else IsValidMacAddresses(macs[1..], isValidMac)
  }

  /** A one-element list is judged as its element. */
  lemma SingleTag(tag: string)
    ensures IsValidTags([tag]) == IsValidTag(tag)
  {
  }

  /** The list check accepts a list iff each element passes the single-tag check. */
  lemma TagsAreTagwise(tags: seq<string>)
    ensures IsValidTags(tags) <==> forall i :: 0 <= i < |tags| ==> IsValidTag(tags[i])
  {
  }
}

=== FILE: ip_address.dfy ===
/** The address classifiers of opsplugins/ipaddress.py. An IPv4 address is the 32-bit
    big-endian integer `inet_pton` yields; an IPv6 address is the 128-bit integer formed
    from its two 64-bit halves. The predicates use the masks of ipaddress.py, which differ from
    the special ranges of RFC 1122 section 3.2.1.3 and RFC 4291 section 2.5 in two places:
    the loopback mask 0x7f000000 also matches 255.0.0.0/8, and the link-local and
    site-local masks 0xfec0... also match ff80::/10 and ffc0::/10. */
module IpAddress {

  /** What `inet_pton` makes of an address text: the AF_INET parse is tried first, then the
      AF_INET6 one. The text parser itself is not modelled. */
  datatype ParsedAddr = V4(addr: bv32) | V6(hi: bv64, lo: bv64) | Unparsable

  /** `(hi << 64) | lo`: the halves `struct.unpack("!QQ", ...)` yields, joined. */
  function Ipv6ToInt(hi: bv64, lo: bv64): bv128 {
    (hi as bv128 << 64) | lo as bv128
  }

  /** The top octet (the first number of the dotted quad). */
  function TopOctet(ip: bv32): bv32 { ip >> 24 }

  /** The low octet (the last number of the dotted quad). */
  function LowOctet(ip: bv32): bv32 { ip & 0xff }

  /** The address written a.b.c.d. */
  function Quad(a: bv8, b: bv8, c: bv8, d: bv8): (ip: bv32)
    ensures TopOctet(ip) == a as bv32 && LowOctet(ip) == d as bv32
  {
    (a as bv32 << 24) | (b as bv32 << 16) | (c as bv32 << 8) | d as bv32
  }

  predicate IsBroadcastIpv4(ip: bv32) { ip & 0xffff_ffff == 0xffff_ffff }

  /** `is_loopback_ipv4`'s mask test; it holds for 127.0.0.0/8 and for 255.0.0.0/8. */
  predicate IsLoopbackIpv4(ip: bv32)
    ensures IsLoopbackIpv4(ip) <==> TopOctet(ip) == 127 || TopOctet(ip) == 255
  {
    ip & 0x7f00_0000 == 0x7f00_0000
  }

  predicate IsMulticastIpv4(ip: bv32)
    ensures IsMulticastIpv4(ip) <==> 224 <= TopOctet(ip) < 240
  {
    ip & 0xf000_0000 == 0xe000_0000
  }

  predicate IsExperimentalIpv4(ip: bv32)
    ensures IsExperimentalIpv4(ip) <==> 240 <= TopOctet(ip)
  {
    ip & 0xf000_0000 == 0xf000_0000
  }

  predicate IsInvalidIpv4(ip: bv32) { ip == 0 }

  predicate IsSubnetBroadcast(ip: bv32) { ip & 0x0000_00ff == 0xff }

  predicate IsNetworkAddress(ip: bv32) { ip & 0x0000_00ff == 0x0 }

  /** `is_valid_ipv4`: none of the seven rejecting classifiers holds. Read on the dotted
      quad, the accepted addresses are exactly those whose first number is below 224 and
      not 127 and whose last number is neither 0 nor 255. */
  predicate IsValidIpv4(ip: bv32)
    ensures IsValidIpv4(ip) <==>
              TopOctet(ip) < 224 && TopOctet(ip) != 127 && LowOctet(ip) != 0 && LowOctet(ip) != 255
  {
    !(IsBroadcastIpv4(ip) || IsLoopbackIpv4(ip) || IsMulticastIpv4(ip) || IsExperimentalIpv4(ip)
      || IsInvalidIpv4(ip) || IsSubnetBroadcast(ip) || IsNetworkAddress(ip))
  }

  predicate In6IsAddrUnspecified(ip: bv128) { ip == 0 }

  predicate In6IsAddrLoopback(ip: bv128) { ip == 1 }

  /** `in6_is_addr_sitelocal`'s mask test: the top ten bits are those of fec0::/10 or of ffc0::/10. */
  predicate In6IsAddrSitelocal(ip: bv128)
    ensures In6IsAddrSitelocal(ip) <==> ip >> 118 == 0x3fb || ip >> 118 == 0x3ff
  {
    ip & 0xfec0_0000_0000_0000_0000_0000_0000_0000 == 0xfec0_0000_0000_0000_0000_0000_0000_0000
  }

  /** Multicast: the top byte is 0xff (ff00::/8). */
  predicate In6IsAddrMulticast(ip: bv128)
    ensures In6IsAddrMulticast(ip) <==> ip >> 120 == 0xff
  {
    ip & 0xff00_0000_0000_0000_0000_0000_0000_0000 == 0xff00_0000_0000_0000_0000_0000_0000_0000
  }

  /** `in6_is_addr_linklocal`'s mask test: the top ten bits are those of fe80::/10 or of ff80::/10. */
  predicate In6IsAddrLinklocal(ip: bv128)
    ensures In6IsAddrLinklocal(ip) <==> ip >> 118 == 0x3fa || ip >> 118 == 0x3fe
  {
    ip & 0xfec0_0000_0000_0000_0000_0000_0000_0000 == 0xfe80_0000_0000_0000_0000_0000_0000_0000
  }

  /** `is_ipv6_global_unicast`: none of the five rejecting classifiers holds. Together they
      reject ::, ::1, ff00::/8 and fe80::/9 (link-local and site-local), and nothing else. */
  predicate IsIpv6GlobalUnicast(ip: bv128)
    ensures IsIpv6GlobalUnicast(ip) <==> ip != 0 && ip != 1 && ip >> 120 != 0xff && ip >> 119 != 0x1fd
  {
    !(In6IsAddrUnspecified(ip) || In6IsAddrLoopback(ip) || In6IsAddrSitelocal(ip)
      || In6IsAddrMulticast(ip) || In6IsAddrLinklocal(ip))
  }

  /** `is_valid_ip_address` on the parse result: an IPv4 parse is judged by `is_valid_ipv4`
      alone, an IPv6 parse by `is_ipv6_global_unicast` alone, and text that parses as
      neither is rejected. */
  predicate IsValidIpAddress(p: ParsedAddr)
    ensures p.Unparsable? ==> !IsValidIpAddress(p)
    ensures p.V4? ==> (IsValidIpAddress(p) <==> IsValidIpv4(p.addr))
    ensures p.V6? ==> (IsValidIpAddress(p) <==> IsIpv6GlobalUnicast(Ipv6ToInt(p.hi, p.lo)))
  {
    match p
    case V4(a) => IsValidIpv4(a)
    case V6(hi, lo) => IsIpv6GlobalUnicast(Ipv6ToInt(hi, lo))
    case Unparsable => false
  }

  // ---------------------------------------------------------------------------------------
  // Properties

  /** The joined integer gives back both halves. */
  lemma Ipv6ToIntHalves(hi: bv64, lo: bv64)
    ensures Ipv6ToInt(hi, lo) >> 64 == hi as bv128
    ensures Ipv6ToInt(hi, lo) & 0xffff_ffff_ffff_ffff == lo as bv128
  {
  }

  /** The joined integer is :: or ::1 exactly when its halves say so. */
  lemma Ipv6ToIntSmall(hi: bv64, lo: bv64)
    ensures Ipv6ToInt(hi, lo) == 0 <==> hi == 0 && lo == 0
    ensures Ipv6ToInt(hi, lo) == 1 <==> hi == 0 && lo == 1
  {
    Ipv6ToIntHalves(hi, lo);
    assert hi == 0 ==> Ipv6ToInt(hi, lo) == lo as bv128;
  }

  /** The top bits of the joined integer are the top bits of `hi`. */
  lemma Ipv6ToIntTop(hi: bv64, lo: bv64)
    ensures Ipv6ToInt(hi, lo) >> 120 == (hi >> 56) as bv128
    ensures Ipv6ToInt(hi, lo) >> 119 == (hi >> 55) as bv128
  {
  }

  /** `is_valid_ip_address` read on the two halves of an IPv6 parse: the address is
      refused iff it is :: or ::1, or its top byte is 0xff, or its top nine bits are those
      of fe80::/9. */
  lemma Ipv6Verdict(hi: bv64, lo: bv64)
    ensures IsValidIpAddress(V6(hi, lo)) <==>
              !(hi == 0 && (lo == 0 || lo == 1)) && hi >> 56 != 0xff && hi >> 55 != 0x1fd
  {
    Ipv6ToIntSmall(hi, lo);
    Ipv6ToIntTop(hi, lo);
    assert hi >> 56 == 0xff <==> (hi >> 56) as bv128 == 0xff;
    assert hi >> 55 == 0x1fd <==> (hi >> 55) as bv128 == 0x1fd;
  }

  /** The joined integer is hi * 2^64 + lo. Together with the two halves `Ipv6ToInt`
      gives back, this shows the 128-bit value is that of the unbounded Python integer. */
  lemma Ipv6ToIntValue(hi: bv64, lo: bv64)
    ensures Ipv6ToInt(hi, lo) == hi as bv128 * 0x1_0000_0000_0000_0000 + lo as bv128
  {
  }

  /** On the dotted quad a.b.c.d, `is_valid_ipv4` accepts exactly when a is below 224 and
      not 127, and d is neither 0 nor 255; the middle numbers never matter. */
  lemma ValidIpv4Quad(a: bv8, b: bv8, c: bv8, d: bv8)
    ensures IsValidIpv4(Quad(a, b, c, d)) <==> a < 224 && a != 127 && d != 0 && d != 255
  {
  }

  /** Concrete addresses: 10.0.0.1 and 192.168.0.1 pass; 127.0.0.1, 255.1.2.3,
      224.0.0.5, 10.0.0.0 and 10.0.0.255 do not. */
  lemma Ipv4Examples()
    ensures IsValidIpv4(0x0A00_0001) && IsValidIpv4(0xC0A8_0001)
    ensures !IsValidIpv4(0x7F00_0001) && !IsValidIpv4(0xFF01_0203) && !IsValidIpv4(0xE000_0005)
    ensures !IsValidIpv4(0x0A00_0000) && !IsValidIpv4(0x0A00_00FF)
  {
  }
}

=== FILE: lease_db.dfy ===
/** The lease table of dhcp_lease_db.py: the DHCP_Lease rows, in the order the database
    iterates them, and the insert, update-or-insert, delete-first-match and clear operations
    the lease hook drives. A transaction's outcome is abstracted to whether it was
    committed. */
module LeaseDb {
  import opened Wrappers

  /** A row of DHCP_Lease. The hostname and the client id are optional columns. */
  datatype LeaseRow = LeaseRow(
    expiryTime: string,
    macAddress: string,
    ipAddress: string,
    clientHostname: Option<string>,
    clientId: Option<string>)

  /** A freshly inserted row before any column is written: empty strings, empty optional
      columns. */
  const FreshRow: LeaseRow := LeaseRow("", "", "", None, None)

  /** The values to write into a row; None leaves that column as it is. */
  datatype LeaseEntry = LeaseEntry(
    expiryTime: Option<string>,
    macAddress: Option<string>,
    ipAddress: Option<string>,
    clientHostname: Option<string>,
    clientId: Option<string>)

  /** UNCHANGED when nothing was committed; Committed stands for whatever `commit_block`
      returns. */
  datatype Status = Unchanged | Committed

  /** `__set_column_value`: every column whose entry value is not None is overwritten, every
      other column keeps its value. */
  function SetColumnValues(row: LeaseRow, e: LeaseEntry): (r: LeaseRow)
    ensures e.expiryTime.Some? ==> r.expiryTime == e.expiryTime.value
    ensures e.expiryTime.None? ==> r.expiryTime == row.expiryTime
    ensures e.macAddress.Some? ==> r.macAddress == e.macAddress.value
    ensures e.macAddress.None? ==> r.macAddress == row.macAddress
    ensures e.ipAddress.Some? ==> r.ipAddress == e.ipAddress.value
    ensures e.ipAddress.None? ==> r.ipAddress == row.ipAddress
    ensures e.clientHostname.Some? ==> r.clientHostname == e.clientHostname
    ensures e.clientHostname.None? ==> r.clientHostname == row.clientHostname
    ensures e.clientId.Some? ==> r.clientId == e.clientId
    ensures e.clientId.None? ==> r.clientId == row.clientId
  {
    LeaseRow(
      e.expiryTime.GetOr(row.expiryTime),
      e.macAddress.GetOr(row.macAddress),
      e.ipAddress.GetOr(row.ipAddress),
      if e.clientHostname.Some? then e.clientHostname else row.clientHostname,
      if e.clientId.Some? then e.clientId else row.clientId)
  }

  /** Writing the same entry twice is writing it once; an entry of all None writes nothing. */
  lemma SetColumnValuesIdempotent(row: LeaseRow, e: LeaseEntry)
    ensures SetColumnValues(SetColumnValues(row, e), e) == SetColumnValues(row, e)
    ensures e == LeaseEntry(None, None, None, None, None) ==> SetColumnValues(row, e) == row
  {
  }

  /** An entry that writes every column leaves nothing of the row it is written into. */
  lemma FullEntryOverwrites(a: LeaseRow, b: LeaseRow, e: LeaseEntry)
    requires e.expiryTime.Some? && e.macAddress.Some? && e.ipAddress.Some?
    requires e.clientHostname.Some? && e.clientId.Some?
    ensures SetColumnValues(a, e) == SetColumnValues(b, e)
  {
  }

  /** The position of the first row with this MAC address, if any. */
  function FirstIndexOf(table: seq<LeaseRow>, mac: string): (r: Option<nat>)
    ensures r.None? <==> forall j :: 0 <= j < |table| ==> table[j].macAddress != mac
    ensures r.Some? ==> r.value < |table| && table[r.value].macAddress == mac
                        && forall j :: 0 <= j < r.value ==> table[j].macAddress != mac
  {
    if |table| == 0 then None
    else if table[0].macAddress == mac then Some(0)
    else
      var rest := FirstIndexOf(table[1..], mac);
      assert forall j :: 1 <= j < |table| ==> table[j] == table[1..][j - 1];
      if rest.None? then None else Some(rest.value + 1)
  }

  /** `find_row_by_mac_addr`: walks the rows and stops at the first with this MAC address.
      When none has it, the loop variable is left on the last row (nothing on an empty
      table) and that row is returned with found = False. */
  method FindRowByMac(table: seq<LeaseRow>, mac: string) returns (row: Option<nat>, found: bool)
    ensures found <==> exists j :: 0 <= j < |table| && table[j].macAddress == mac
    ensures found ==> row == FirstIndexOf(table, mac)
    ensures !found ==> row == (if |table| == 0 then None else Some(|table| - 1))
  {
    row := None;
    found := false;
    var i := 0;
    while i < |table|
      invariant 0 <= i <= |table|
      invariant forall j :: 0 <= j < i ==> table[j].macAddress != mac
      invariant row == (if i == 0 then None else Some(i - 1))
    {
      row := Some(i);
      if table[i].macAddress == mac {
        found := true;
        return;
      }
      i := i + 1;
    }
  }

  /** `insert_row`: a new row, written from the entry, is always added; an existing row with
      the same MAC address is not looked for. */
  function InsertRow(table: seq<LeaseRow>, e: LeaseEntry): (r: (seq<LeaseRow>, Status))
    ensures |r.0| == |table| + 1
    ensures r.0[..|table|] == table
    ensures r.0[|table|] == SetColumnValues(FreshRow, e)
    ensures r.1 == Committed
  {
    (table + [SetColumnValues(FreshRow, e)], Committed)
  }

  /** `update_row`: the first row with the MAC address is rewritten in place; without one the
      entry is inserted. */
  function UpdateRow(table: seq<LeaseRow>, mac: string, e: LeaseEntry): (r: (seq<LeaseRow>, Status))
    ensures FirstIndexOf(table, mac).Some? ==>
              var i := FirstIndexOf(table, mac).value;
              |r.0| == |table| && r.0[i] == SetColumnValues(table[i], e)
              && (forall j :: 0 <= j < |table| && j != i ==> r.0[j] == table[j])
    ensures FirstIndexOf(table, mac).None? ==> r == InsertRow(table, e)
    ensures r.1 == Committed
  {
    match FirstIndexOf(table, mac)
    case Some(i) => (table[i := SetColumnValues(table[i], e)], Committed)
    case None => InsertRow(table, e)
  }

  /** `delete_row`: removes the first row with the MAC address and reports it found; without
      one the table and the status are unchanged. */
  function DeleteRow(table: seq<LeaseRow>, mac: string): (r: (seq<LeaseRow>, bool, Status))
    ensures r.1 <==> exists j :: 0 <= j < |table| && table[j].macAddress == mac
    ensures !r.1 ==> r.0 == table && r.2 == Unchanged
    ensures r.1 ==> |r.0| == |table| - 1 && r.2 == Committed
    ensures r.1 ==> var i := FirstIndexOf(table, mac).value;
                    r.0 == table[..i] + table[i + 1..]
  {
    match FirstIndexOf(table, mac)
    case Some(i) => (table[..i] + table[i + 1..], true, Committed)
    case None => (table, false, Unchanged)
  }

  /** `clear_db`: deletes the first row until none is left; it commits only if it deleted
      something. */
  method ClearDb(table: seq<LeaseRow>) returns (rest: seq<LeaseRow>, status: Status)
    ensures rest == []
    ensures status == Unchanged <==> |table| == 0
  {
    rest := table;
    var deleted := false;
    status := Unchanged;
    while |rest| > 0
      invariant |rest| <= |table|
      invariant deleted <==> |rest| < |table|
      decreases |rest|
    {
      rest := rest[1..];
      deleted := true;
    }
    if deleted {
      status := Committed;
    }
  }

  // ---------------------------------------------------------------------------------------
  // Rows per MAC address

  /** The number of rows with this MAC address. */
  function CountMac(table: seq<LeaseRow>, mac: string): nat {
    if |table| == 0 then 0
    else (if table[0].macAddress == mac then 1 else 0) + CountMac(table[1..], mac)
  }

  lemma {:induction false} CountMacAppend(a: seq<LeaseRow>, b: seq<LeaseRow>, mac: string)
    ensures CountMac(a + b, mac) == CountMac(a, mac) + CountMac(b, mac)
  {
    if |a| == 0 {
      assert a + b == b;
    } else {
      assert (a + b)[1..] == a[1..] + b;
      CountMacAppend(a[1..], b, mac);
    }
  }

  /** No row has the MAC address exactly when none is counted. */
  lemma {:induction false} CountMacZero(table: seq<LeaseRow>, mac: string)
    ensures CountMac(table, mac) == 0 <==> forall j :: 0 <= j < |table| ==> table[j].macAddress != mac
  {
    if |table| > 0 {
      CountMacZero(table[1..], mac);
      assert forall j :: 1 <= j < |table| ==> table[j] == table[1..][j - 1];
    }
  }

  /** Replacing one row changes the count by what the two rows contribute. */
  lemma CountMacReplace(table: seq<LeaseRow>, i: nat, row: LeaseRow, mac: string)
    requires i < |table|
    ensures CountMac(table[i := row], mac) + (if table[i].macAddress == mac then 1 else 0)
            == CountMac(table, mac) + (if row.macAddress == mac then 1 else 0)
  {
    assert table == table[..i] + [table[i]] + table[i + 1..];
    assert table[i := row] == table[..i] + [row] + table[i + 1..];
    CountMacAppend(table[..i] + [table[i]], table[i + 1..], mac);
    CountMacAppend(table[..i], [table[i]], mac);
    CountMacAppend(table[..i] + [row], table[i + 1..], mac);
    CountMacAppend(table[..i], [row], mac);
  }

  /** Inserting an entry for MAC m adds one row with m: there is no de-duplication. */
  lemma InsertAddsOne(table: seq<LeaseRow>, e: LeaseEntry, mac: string)
    requires e.macAddress == Some(mac)
    ensures CountMac(InsertRow(table, e).0, mac) == CountMac(table, mac) + 1
  {
    CountMacAppend(table, [SetColumnValues(FreshRow, e)], mac);
  }

  /** Deleting MAC m removes exactly one of its rows and leaves every other MAC's rows. */
  lemma DeleteRemovesOne(table: seq<LeaseRow>, mac: string, other: string)
    requires other != mac
    ensures DeleteRow(table, mac).1 ==> CountMac(DeleteRow(table, mac).0, mac) == CountMac(table, mac) - 1
    ensures CountMac(DeleteRow(table, mac).0, other) == CountMac(table, other)
  {
    match FirstIndexOf(table, mac)
    case Some(i) =>
      assert table == table[..i] + [table[i]] + table[i + 1..];
      CountMacAppend(table[..i] + [table[i]], table[i + 1..], mac);
      CountMacAppend(table[..i], [table[i]], mac);
      CountMacAppend(table[..i], table[i + 1..], mac);
      CountMacAppend(table[..i] + [table[i]], table[i + 1..], other);
      CountMacAppend(table[..i], [table[i]], other);
      CountMacAppend(table[..i], table[i + 1..], other);
    case None =>
  }

  /** Updating MAC m with an entry that keeps m (or does not write the MAC column) leaves the
      number of rows with m as it was when there was one, and makes it one otherwise. */
  lemma UpdateKeepsOne(table: seq<LeaseRow>, e: LeaseEntry, mac: string)
    requires e.macAddress == Some(mac) || e.macAddress.None?
    requires e.macAddress.None? ==> FirstIndexOf(table, mac).Some?
    ensures FirstIndexOf(table, mac).Some? ==> CountMac(UpdateRow(table, mac, e).0, mac) == CountMac(table, mac)
    ensures FirstIndexOf(table, mac).None? ==> CountMac(UpdateRow(table, mac, e).0, mac) == 1
  {
    match FirstIndexOf(table, mac)
    case Some(i) =>
      CountMacReplace(table, i, SetColumnValues(table[i], e), mac);
    case None =>
      CountMacZero(table, mac);
      InsertAddsOne(table, e, mac);
  }

  /** The lease life cycle of one client: `add`, then `old` with a new address or hostname,
      then `del` leaves no row with its MAC address when there was none before. */
  lemma AddOldDelLeavesNone(table: seq<LeaseRow>, mac: string, added: LeaseEntry, renewed: LeaseEntry)
    requires forall j :: 0 <= j < |table| ==> table[j].macAddress != mac
    requires added.macAddress == Some(mac) && renewed.macAddress == Some(mac)
    ensures var t1 := InsertRow(table, added).0;
            var t2 := UpdateRow(t1, mac, renewed).0;
            var t3 := DeleteRow(t2, mac).0;
            forall j :: 0 <= j < |t3| ==> t3[j].macAddress != mac
  {
    var t1 := InsertRow(table, added).0;
    CountMacZero(table, mac);
    InsertAddsOne(table, added, mac);
    assert t1[|table|].macAddress == mac;
    assert FirstIndexOf(t1, mac).Some?;
    var t2 := UpdateRow(t1, mac, renewed).0;
    UpdateKeepsOne(t1, renewed, mac);
    assert CountMac(t2, mac) == 1;
    CountMacZero(t2, mac);
    var t3 := DeleteRow(t2, mac).0;
    DeleteRemovesOne(t2, mac, mac + "x");
    CountMacZero(t3, mac);
  }
}

=== FILE: lease_hook.dfy ===
/** The lease hook dhcp_leases.py that dnsmasq runs on every lease event: it reads the
    positional arguments by their count, takes the expiry time from the environment, and
    lists, inserts, updates or deletes lease rows. */
module LeaseHook {
  import opened Wrappers
  import LeaseDb

  /** What ends the hook without touching the table: too few arguments (`num_args < 2`),
      more than argparse accepts, a missing DNSMASQ_LEASE_EXPIRES (a KeyError), or a
      command word the dispatch does not know. */
  datatype HookError =
    | TooFewArguments
    | UnrecognizedArguments
    | MissingExpiry
    | InvalidCommand(command: string)

  /** The placeholder for a field dnsmasq did not pass. */
  const Unset: string := "*"

  /** The lease fields of one event; unfilled fields hold "*". */
  datatype HookEntry = HookEntry(
    expiryTime: string,
    macAddress: string,
    ipAddress: string,
    clientHostname: string,
    clientId: string)

  /** Argument j of argv, or "*" when there are not that many. */
  function ArgOrUnset(argv: seq<string>, j: nat): string {
    if |argv| > j then argv[j] else Unset
  }

  /** main's argument handling: the command, then the MAC address and the expiry time when
      there are more than two arguments, the IP address when more than three, the hostname
      when more than four, the client id when more than five. The program name counts as
      the first argument. */
  function Decode(argv: seq<string>, expires: Option<string>): (r: Result<(string, HookEntry), HookError>)
    ensures r.Err? <==> |argv| < 2 || |argv| > 6 || (|argv| > 2 && expires.None?)
    ensures |argv| < 2 ==> r == Err(TooFewArguments)
    ensures r.Ok? ==> r.value.0 == argv[1]
  {
    if |argv| < 2 then Err(TooFewArguments)
    else if |argv| > 6 then Err(UnrecognizedArguments)
    else if |argv| > 2 && expires.None? then Err(MissingExpiry)
    else
      var expiry := if |argv| > 2 then expires.value else Unset;
      Ok((argv[1], HookEntry(expiry, ArgOrUnset(argv, 2), ArgOrUnset(argv, 3), ArgOrUnset(argv, 4),
                             ArgOrUnset(argv, 5))))
  }

  /** Each field is filled exactly when dnsmasq passed it; the expiry time comes with the MAC
      address. Re-encoding the filled fields gives back the arguments. */
  lemma DecodeFields(argv: seq<string>, expires: Option<string>)
    requires Decode(argv, expires).Ok?
    ensures var e := Decode(argv, expires).value.1;
            && (|argv| > 2 ==> e.macAddress == argv[2] && expires.Some? && e.expiryTime == expires.value)
            && (|argv| <= 2 ==> e.macAddress == Unset && e.expiryTime == Unset)
            && (|argv| > 3 ==> e.ipAddress == argv[3]) && (|argv| <= 3 ==> e.ipAddress == Unset)
            && (|argv| > 4 ==> e.clientHostname == argv[4]) && (|argv| <= 4 ==> e.clientHostname == Unset)
            && (|argv| > 5 ==> e.clientId == argv[5]) && (|argv| <= 5 ==> e.clientId == Unset)
            && [argv[0], Decode(argv, expires).value.0]
               + [e.macAddress, e.ipAddress, e.clientHostname, e.clientId][..|argv| - 2] == argv
  {
    var e := Decode(argv, expires).value.1;
    var fields := [e.macAddress, e.ipAddress, e.clientHostname, e.clientId];
    assert forall j :: 2 <= j < |argv| ==> fields[j - 2] == argv[j];
  }

  /** What one run of the hook leaves: the table, the lines it printed and its error. */
  datatype Outcome = Outcome(table: seq<LeaseDb.LeaseRow>, lines: seq<string>, error: Option<HookError>)

  /** The hook writes every field, "*" included, into the row. */
  function ToDbEntry(e: HookEntry): (r: LeaseDb.LeaseEntry)
    ensures r.expiryTime.Some? && r.macAddress.Some? && r.ipAddress.Some?
    ensures r.clientHostname.Some? && r.clientId.Some?
  {
    LeaseDb.LeaseEntry(Some(e.expiryTime), Some(e.macAddress), Some(e.ipAddress), Some(e.clientHostname),
                       Some(e.clientId))
  }

  /** The command dispatch of main. */
  function Dispatch(command: string, e: HookEntry, table: seq<LeaseDb.LeaseRow>): (r: Outcome)
    ensures r.error.None? <==> command in {"init", "show", "add", "del", "old", "tftp"}
    ensures r.error.Some? ==> r == Outcome(table, [], Some(InvalidCommand(command)))
    ensures r.lines != [] ==> command in {"init", "show"}
    ensures command !in {"add", "del", "old"} ==> r.table == table
  {
    if command == "init" || command == "show" then Outcome(table, Show(table), None)
    else if command == "add" then Outcome(LeaseDb.InsertRow(table, ToDbEntry(e)).0, [], None)
    else if command == "del" then Outcome(LeaseDb.DeleteRow(table, e.macAddress).0, [], None)
    else if command == "old" then Outcome(LeaseDb.UpdateRow(table, e.macAddress, ToDbEntry(e)).0, [], None)
    else if command == "tftp" then Outcome(table, [], None)
    else Outcome(table, [], Some(InvalidCommand(command)))
  }

  /** One run of the hook: an argument vector that does not decode is reported and changes
      nothing; a decoded one is dispatched on its command. */
  function Main(argv: seq<string>, expires: Option<string>, table: seq<LeaseDb.LeaseRow>): (r: Outcome)
    ensures Decode(argv, expires).Err? ==> r == Outcome(table, [], Some(Decode(argv, expires).error))
    ensures Decode(argv, expires).Ok? ==>
              r == Dispatch(Decode(argv, expires).value.0, Decode(argv, expires).value.1, table)
  {
    match Decode(argv, expires)
    case Err(err) => Outcome(table, [], Some(err))
    case Ok((command, e)) => Dispatch(command, e, table)
  }

  /** Fewer than two arguments: an error, and nothing is done. */
  lemma TooFewArgumentsDoNothing(argv: seq<string>, expires: Option<string>, table: seq<LeaseDb.LeaseRow>)
    requires |argv| < 2
    ensures Main(argv, expires, table) == Outcome(table, [], Some(TooFewArguments))
  {
  }

  /** `tftp` ends the hook with no effect; an unknown word is an error and leaves the table. */
  lemma TftpAndUnknownLeaveTable(argv: seq<string>, expires: Option<string>, table: seq<LeaseDb.LeaseRow>)
    requires Decode(argv, expires).Ok?
    requires argv[1] !in {"init", "show", "add", "del", "old"}
    ensures Main(argv, expires, table).table == table && Main(argv, expires, table).lines == []
    ensures Main(argv, expires, table).error.None? <==> argv[1] == "tftp"
  {
  }

  /** `add <mac> <ip> <hostname>` appends one row that `show` then lists with the four
      fields and "*" for the missing client id. */
  lemma AddThenShow(table: seq<LeaseDb.LeaseRow>, prog: string, mac: string, ip: string, host: string, t: string)
    requires mac != "" && ip != "" && t != ""
    ensures var t1 := Main([prog, "add", mac, ip, host], Some(t), table).table;
            && |t1| == |table| + 1
            && Main([prog, "show"], None, t1).lines[|table|] == Join([t, mac, ip, host, "*"])
  {
    var add := HookEntry(t, mac, ip, host, Unset);
    assert Decode([prog, "add", mac, ip, host], Some(t)) == Ok(("add", add));
    assert Decode([prog, "show"], None) == Ok(("show", HookEntry(Unset, Unset, Unset, Unset, Unset)));
    var t1 := LeaseDb.InsertRow(table, ToDbEntry(add)).0;
    assert Main([prog, "add", mac, ip, host], Some(t), table).table == t1;
    var row := t1[|table|];
    assert row == LeaseDb.LeaseRow(t, mac, ip, Some(host), Some(Unset));
    assert [ShownText(t), ShownText(mac), ShownText(ip), ShownOption(Some(host)), ShownOption(Some(Unset))]
           == [t, mac, ip, host, "*"];
  }

  /** The call dnsmasq makes for a client without a client id. */
  lemma DecodeFour(prog: string, command: string, mac: string, ip: string, host: string, t: string)
    ensures Decode([prog, command, mac, ip, host], Some(t)) == Ok((command, HookEntry(t, mac, ip, host, Unset)))
  {
  }

  /** The test scenario of one client: after `add`, an `old` with a new address and
      hostname rewrites the row rather than adding one, and `del` then leaves no row with
      the MAC address. */
  lemma ClientLifecycle(table: seq<LeaseDb.LeaseRow>, prog: string, mac: string, ip: string, host: string,
                        ip2: string, host2: string, t: string)
    requires forall j :: 0 <= j < |table| ==> table[j].macAddress != mac
    ensures var t1 := Main([prog, "add", mac, ip, host], Some(t), table).table;
            var t2 := Main([prog, "old", mac, ip2, host2], Some(t), t1).table;
            var t3 := Main([prog, "del", mac, ip2, host2], Some(t), t2).table;
            && |t2| == |t1| == |table| + 1
            && LeaseDb.CountMac(t2, mac) == 1
            && forall j :: 0 <= j < |t3| ==> t3[j].macAddress != mac
  {
    var add := ToDbEntry(HookEntry(t, mac, ip, host, Unset));
    var renewed := ToDbEntry(HookEntry(t, mac, ip2, host2, Unset));
    var t1 := LeaseDb.InsertRow(table, add).0;
    DecodeFour(prog, "add", mac, ip, host, t);
    assert Main([prog, "add", mac, ip, host], Some(t), table).table == t1;
    var t2 := LeaseDb.UpdateRow(t1, mac, renewed).0;
    DecodeFour(prog, "old", mac, ip2, host2, t);
    assert Main([prog, "old", mac, ip2, host2], Some(t), t1).table == t2;
    DecodeFour(prog, "del", mac, ip2, host2, t);
    assert Main([prog, "del", mac, ip2, host2], Some(t), t2).table == LeaseDb.DeleteRow(t2, mac).0;
    assert t1[|table|].macAddress == mac;
    LeaseDb.CountMacZero(table, mac);
    LeaseDb.InsertAddsOne(table, add, mac);
    LeaseDb.UpdateKeepsOne(t1, renewed, mac);
    LeaseDb.AddOldDelLeavesNone(table, mac, add, renewed);
  }

  // ---------------------------------------------------------------------------------------
  // Listing

  /** A column value as `show` prints it: "*" for an empty string. */
  function ShownText(s: string): string {
    if s == "" then Unset else s
  }

  /** An optional column as `show` prints it: its value when it has one, "*" otherwise. */
  function ShownOption(o: Option<string>): string {
    if o.Some? then o.value else Unset
  }

  /** Fields separated by single spaces. */
  function Join(fields: seq<string>): string {
    if |fields| == 0 then ""
    else if |fields| == 1 then fields[0]
    else fields[0] + " " + Join(fields[1..])
  }

  /** `print_to_stdout`: expiry, MAC, IP, hostname and client id, in that order. */
  function ShowLine(row: LeaseDb.LeaseRow): string {
    Join([ShownText(row.expiryTime), ShownText(row.macAddress), ShownText(row.ipAddress),
          ShownOption(row.clientHostname), ShownOption(row.clientId)])
  }

  /** `dhcp_leases_show`: one line per row, in table order. */
  function Show(table: seq<LeaseDb.LeaseRow>): (lines: seq<string>)
    ensures |lines| == |table|
    ensures forall i :: 0 <= i < |table| ==> lines[i] == ShowLine(table[i])
  {
    if |table| == 0 then [] else [ShowLine(table[0])] + Show(table[1..])
  }

  /** The line split at every blank, keeping empty fields, as `str.split(' ')` does. */
  function Split(s: string): (r: seq<string>)
    ensures |r| >= 1
  {
    if |s| == 0 then [""]
    else
      var rest := Split(s[1..]);
      if s[0] == ' ' then [""] + rest else [[s[0]] + rest[0]] + rest[1..]
  }

  predicate NoBlank(s: string) { forall k :: 0 <= k < |s| ==> s[k] != ' ' }

  /** A field without blanks in front of a blank starts a new field. */
  lemma {:induction false} SplitField(f: string, t: string)
    requires NoBlank(f)
    ensures Split(f + " " + t) == [f] + Split(t)
  {
    if |f| == 0 {
      assert f + " " + t == [' '] + t;
      assert ([' '] + t)[1..] == t;
    } else {
      assert (f + " " + t)[1..] == f[1..] + " " + t;
      SplitField(f[1..], t);
      assert [f[0]] + f[1..] == f;
    }
  }

  /** A field without blanks is one field. */
  lemma {:induction false} SplitSingle(f: string)
    requires NoBlank(f)
    ensures Split(f) == [f]
  {
    if |f| > 0 {
      SplitSingle(f[1..]);
      assert [f[0]] + f[1..] == f;
    }
  }

  /** Splitting joined fields gives the fields back when none of them holds a blank. */
  lemma {:induction false} SplitJoin(fields: seq<string>)
    requires |fields| >= 1
    requires forall i :: 0 <= i < |fields| ==> NoBlank(fields[i])
    ensures Split(Join(fields)) == fields
  {
    if |fields| == 1 {
      SplitSingle(fields[0]);
    } else {
      SplitJoin(fields[1..]);
      SplitField(fields[0], Join(fields[1..]));
      assert [fields[0]] + fields[1..] == fields;
    }
  }

  /** A listed line reads back as its five fields in the order expiry, MAC, IP, hostname,
      client id, with "*" for each missing one, when no value holds a blank. */
  lemma ShowLineFields(row: LeaseDb.LeaseRow)
    requires NoBlank(row.expiryTime) && NoBlank(row.macAddress) && NoBlank(row.ipAddress)
    requires row.clientHostname.Some? ==> NoBlank(row.clientHostname.value)
    requires row.clientId.Some? ==> NoBlank(row.clientId.value)
    ensures var f := Split(ShowLine(row));
            && |f| == 5
            && f[0] == (if row.expiryTime == "" then "*" else row.expiryTime)
            && f[1] == (if row.macAddress == "" then "*" else row.macAddress)
            && f[2] == (if row.ipAddress == "" then "*" else row.ipAddress)
            && f[3] == (if row.clientHostname.None? then "*" else row.clientHostname.value)
            && f[4] == (if row.clientId.None? then "*" else row.clientId.value)
  {
    SplitJoin([ShownText(row.expiryTime), ShownText(row.macAddress), ShownText(row.ipAddress),
               ShownOption(row.clientHostname), ShownOption(row.clientId)]);
  }

  // ---------------------------------------------------------------------------------------
  // The `clear` command

  /** The command line ops_dhcp_tftp.py runs to drop stale leases. */
  const ClearArgv: seq<string> := ["/usr/bin/dhcp_leases", "clear"]

  /** As written, the dispatch has no `clear` branch: the daemon's cleanup is an invalid
      command and leaves every lease in place. */
  lemma ClearIsRejected(expires: Option<string>, table: seq<LeaseDb.LeaseRow>)
    ensures Main(ClearArgv, expires, table) == Outcome(table, [], Some(InvalidCommand("clear")))
  {
  }

  /** The hook with the `clear` branch the daemon relies on: `clear` runs `clear_db`, every
      other command is handled as before. */
  method MainWithClear(argv: seq<string>, expires: Option<string>, table: seq<LeaseDb.LeaseRow>)
    returns (r: Outcome)
    ensures Decode(argv, expires).Ok? && argv[1] == "clear" ==> r == Outcome([], [], None)
    ensures !(Decode(argv, expires).Ok? && argv[1] == "clear") ==> r == Main(argv, expires, table)
  {
    if Decode(argv, expires).Ok? && argv[1] == "clear" {
      var rest, _ := LeaseDb.ClearDb(table);
      r := Outcome(rest, [], None);
    } else {
      r := Main(argv, expires, table);
    }
  }

  /** With the `clear` branch, the daemon's cleanup empties the table. */
  method ClearEmptiesTable(expires: Option<string>, table: seq<LeaseDb.LeaseRow>) returns (r: Outcome)
    ensures r.table == [] && r.error.None?
  {
    r := MainWithClear(ClearArgv, expires, table);
  }
}

=== FILE: match_check.dfy ===
/** `DHCPSrvMatchValidator.validate_modification` of opsplugins/dhcpsrv_match.py: the set
    tag (a required column), then option names, then option numbers. */
module MatchCheck {
  import opened Wrappers
  import opened Rows
  import opened FieldChecks
  import Decimal

  function ValidateModification(row: MatchRow): Outcome<string> {
    var badName := FirstFailing(Values(row.optionName), IsValidTag);
    var badNumber := FirstFailing(Values(row.optionNumber), IsValidOptionNumber);
    if !IsValidTag(row.setTag) then Fail(row.setTag + " is invalid.")
    else if badName.Some? then Fail(badName.value + " is invalid.")
    else if badNumber.Some? then Fail(Decimal.IntToString(badNumber.value) + " is invalid.")
    else Pass
  }

  /** A match row is accepted iff its set tag and every option name are at most 15
      characters long and every option number is at most 254. */
  lemma AcceptedIff(row: MatchRow)
    ensures ValidateModification(row) == Pass <==>
              |row.setTag| <= 15
              && (forall i :: 0 <= i < |Values(row.optionName)| ==> |Values(row.optionName)[i]| <= 15)
              && (forall i :: 0 <= i < |Values(row.optionNumber)| ==> Values(row.optionNumber)[i] <= 254)
  {
  }

  /** The verdicts in order: an over-long set tag is reported before any option column is
      looked at; then an over-long name; then an option number of 255 or more. */
  lemma CheckOrder(row: MatchRow, i: nat)
    ensures |row.setTag| > 15 ==> ValidateModification(row) == Fail(row.setTag + " is invalid.")
    ensures |row.setTag| <= 15 && i < |Values(row.optionName)| && |Values(row.optionName)[i]| > 15
            && (forall j :: 0 <= j < i ==> |Values(row.optionName)[j]| <= 15)
            ==> ValidateModification(row) == Fail(Values(row.optionName)[i] + " is invalid.")
    ensures |row.setTag| <= 15 && (forall j :: 0 <= j < |Values(row.optionName)| ==> |Values(row.optionName)[j]| <= 15)
            && i < |Values(row.optionNumber)| && Values(row.optionNumber)[i] >= 255
            && (forall j :: 0 <= j < i ==> Values(row.optionNumber)[j] < 255)
            ==> ValidateModification(row) == Fail(Decimal.IntToString(Values(row.optionNumber)[i]) + " is invalid.")
  {
    var names := Values(row.optionName);
    var bad := FirstFailing(names, IsValidTag);
    if |row.setTag| <= 15 && bad.Some? {
      var k :| 0 <= k < |names| && names[k] == bad.value && !IsValidTag(names[k])
               && forall j :: 0 <= j < k ==> IsValidTag(names[j]);
      assert i < |names| && |names[i]| > 15 && (forall j :: 0 <= j < i ==> |names[j]| <= 15) ==> k == i;
    }
    var numbers := Values(row.optionNumber);
    var badNumber := FirstFailing(numbers, IsValidOptionNumber);
    if badNumber.Some? {
      var k :| 0 <= k < |numbers| && numbers[k] == badNumber.value && !IsValidOptionNumber(numbers[k])
               && forall j :: 0 <= j < k ==> IsValidOptionNumber(numbers[j]);
      assert i < |numbers| && numbers[i] >= 255 && (forall j :: 0 <= j < i ==> numbers[j] < 255) ==> k == i;
    }
  }

  /** A valid set tag with no option name and no option number is accepted. */
  lemma SetTagAlone(row: MatchRow)
    requires |row.setTag| <= 15 && row.optionName.None? && row.optionNumber.None?
    ensures ValidateModification(row) == Pass
  {
  }
}

=== FILE: option_check.dfy ===
/** `DHCPSrvOptionValidator.validate_modification` of opsplugins/dhcpsrv_option.py:
    option names, then the match-tag list, then option numbers. No column is required. */
module OptionCheck {
  import opened Wrappers
  import opened Rows
  import opened FieldChecks
  import Decimal

  function ValidateModification(row: OptionRow, o: Oracles): Outcome<string> {
    var badName := FirstFailing(Values(row.optionName), IsValidTag);
    var badNumber := FirstFailing(Values(row.optionNumber), IsValidOptionNumber);
    if badName.Some? then Fail(badName.value + " is invalid.")
    else if row.matchTags.Some? && !IsValidTags(row.matchTags.value) then Fail(o.showList(row.matchTags.value) + " is invalid.")
    else if badNumber.Some? then Fail(Decimal.IntToString(badNumber.value) + " is invalid.")
    else Pass
  }

  /** An option row is accepted iff every name and every match tag is at most 15
      characters long and every option number is at most 254. */
  lemma AcceptedIff(row: OptionRow, o: Oracles)
    ensures ValidateModification(row, o) == Pass <==>
              (forall i :: 0 <= i < |Values(row.optionName)| ==> |Values(row.optionName)[i]| <= 15)
              && (forall i :: 0 <= i < |Values(row.matchTags)| ==> |Values(row.matchTags)[i]| <= 15)
              && (forall i :: 0 <= i < |Values(row.optionNumber)| ==> Values(row.optionNumber)[i] <= 254)
  {
    if row.matchTags.Some? { assert Values(row.matchTags) == row.matchTags.value; }
  }

  /** The verdicts in order: the first over-long name wins; then an over-long match tag
      (naming the whole list); then the first option number of 255 or more. */
  lemma CheckOrder(row: OptionRow, o: Oracles, i: nat)
    ensures i < |Values(row.optionName)| && |Values(row.optionName)[i]| > 15
            && (forall j :: 0 <= j < i ==> |Values(row.optionName)[j]| <= 15)
            ==> ValidateModification(row, o) == Fail(Values(row.optionName)[i] + " is invalid.")
    ensures (forall j :: 0 <= j < |Values(row.optionName)| ==> |Values(row.optionName)[j]| <= 15)
            && row.matchTags.Some? && i < |row.matchTags.value| && |row.matchTags.value[i]| > 15
            ==> ValidateModification(row, o) == Fail(o.showList(row.matchTags.value) + " is invalid.")
    ensures (forall j :: 0 <= j < |Values(row.optionName)| ==> |Values(row.optionName)[j]| <= 15)
            && (forall j :: 0 <= j < |Values(row.matchTags)| ==> |Values(row.matchTags)[j]| <= 15)
            && i < |Values(row.optionNumber)| && Values(row.optionNumber)[i] >= 255
            && (forall j :: 0 <= j < i ==> Values(row.optionNumber)[j] < 255)
            ==> ValidateModification(row, o) == Fail(Decimal.IntToString(Values(row.optionNumber)[i]) + " is invalid.")
  {
    var names := Values(row.optionName);
    var bad := FirstFailing(names, IsValidTag);
    if bad.Some? {
      var k :| 0 <= k < |names| && names[k] == bad.value && !IsValidTag(names[k])
               && forall j :: 0 <= j < k ==> IsValidTag(names[j]);
      assert i < |names| && |names[i]| > 15 && (forall j :: 0 <= j < i ==> |names[j]| <= 15) ==> k == i;
    }
    if row.matchTags.Some? { assert Values(row.matchTags) == row.matchTags.value; }
    var numbers := Values(row.optionNumber);
    var badNumber := FirstFailing(numbers, IsValidOptionNumber);
    if badNumber.Some? {
      var k :| 0 <= k < |numbers| && numbers[k] == badNumber.value && !IsValidOptionNumber(numbers[k])
               && forall j :: 0 <= j < k ==> IsValidOptionNumber(numbers[j]);
      assert i < |numbers| && numbers[i] >= 255 && (forall j :: 0 <= j < i ==> numbers[j] < 255) ==> k == i;
    }
  }

  /** Neither a name nor a number is required: a row without either column is accepted. */
  lemma NothingRequired(row: OptionRow, o: Oracles)
    requires row.optionName.None? && row.optionNumber.None? && row.matchTags.None?
    ensures ValidateModification(row, o) == Pass
  {
  }
}

=== FILE: range_check.dfy ===
/** `DHCPSrvRangeValidator.validate_modification` of opsplugins/dhcpsrv_range.py: the
    checks run when an address pool is written. Each guard raises a ValidationError with its
    own message; the first guard that fails decides the message. */
module RangeCheck {
  import opened Wrappers
  import opened Rows
  import opened FieldChecks

  /** The guards' errors, in the order `validate_modification` checks them. */
  datatype RangeError =
    | BadName(name: string)
    | BadStartIp(start: string)
    | BadEndIp(end: string)
    | BadLease
    | FamilyMismatch
    | BadSetTag(tag: string)
    | BadMatchTags(tags: seq<string>)
    | BadNetmask(mask: string)
    | NotSameNet
    | NetmaskForIpv6
    | BadBroadcast(broadcast: string)
    | BroadcastWithoutNetmask
    | BroadcastForIpv6
    | PrefixForIpv4

  /** The ValidationError details text of each error. */
  function Message(e: RangeError, o: Oracles): string {
    match e
    case BadName(n) => n + " is invalid."
    case BadStartIp(ip) => ip + " is invalid."
    case BadEndIp(ip) => ip + " is invalid."
    case BadLease => LeaseMessage
    case FamilyMismatch => "Invalid IP address range"
    case BadSetTag(t) => t + " is invalid."
    case BadMatchTags(ts) => o.showList(ts) + " is invalid."
    case BadNetmask(m) => m + " is invalid."
    case NotSameNet => "Invalid IP address range."
    case NetmaskForIpv6 => "Error : netmask configuration not allowed for IPv6"
    case BadBroadcast(b) => b + " is invalid."
    case BroadcastWithoutNetmask => "Error : netmask must be specified before broadcast address"
    case BroadcastForIpv6 => "Error : broadcast address not allowed for IPv6"
    case PrefixForIpv4 => "Error: prefix length configuration not allowed for IPv4"
  }

  /** The values the loops of `validate_modification` leave in `end_ip`, `net_mask`, `broad_cast` and
      `prefixlen`: the last element of each column, or None. */
  function EndIp(row: RangeRow): Option<string> { Last(Values(row.endIp)) }
  function NetMask(row: RangeRow): Option<string> { Last(Values(row.netmask)) }
  function BroadCast(row: RangeRow): Option<string> { Last(Values(row.broadcast)) }
  function PrefixLen(row: RangeRow): Option<int> { Last(Values(row.prefixLen)) }

  /** The validator, guard by guard in the order `validate_modification` runs them. */
  function Check(row: RangeRow, o: Oracles): Outcome<RangeError> {
    var start := row.startIp;
    var badEnd := FirstFailing(Values(row.endIp), ip => IsValidIp(o, ip));
    var badLease := FirstFailing(Values(row.leaseDuration), IsValidLeaseDuration);
    var badSetTag := FirstFailing(Values(row.setTag), IsValidTag);
    var badMask := FirstFailing(Values(row.netmask), o.isValidNetmask);
    var endIp := EndIp(row);
    var netMask := NetMask(row);
    var broadCast := BroadCast(row);
    if !IsValidTag(row.name) then Fail(BadName(row.name))
    else if !IsValidIp(o, start) then Fail(BadStartIp(start))
    else if badEnd.Some? then Fail(BadEndIp(badEnd.value))
    else if badLease.Some? then Fail(BadLease)
    else if endIp.Some? && o.ipType(start) != o.ipType(endIp.value) then Fail(FamilyMismatch)
    else if badSetTag.Some? then Fail(BadSetTag(badSetTag.value))
    else if row.matchTags.Some? && !IsValidTags(row.matchTags.value) then Fail(BadMatchTags(row.matchTags.value))
    else if badMask.Some? then Fail(BadNetmask(badMask.value))
    else if endIp.Some? && netMask.Some? && o.ipType(start) == 0
            && !o.isValidNet(start, endIp.value, netMask.value) then Fail(NotSameNet)
    else if o.ipType(start) == 1 && netMask.Some? then Fail(NetmaskForIpv6)
    else if o.ipType(start) == 0 && netMask.Some? && broadCast.Some?
            && !o.isValidBroadcastAddr(start, netMask.value, broadCast.value) then Fail(BadBroadcast(broadCast.value))
    else if broadCast.Some? && netMask.None? then Fail(BroadcastWithoutNetmask)
    else if netMask.Some? && broadCast.Some? && o.ipType(start) == 1 then Fail(BroadcastForIpv6)
    else if endIp.Some? && PrefixLen(row).Some? && o.ipType(start) != 1 then Fail(PrefixForIpv4)
    else Pass
  }

  /** The validator as the write path sees it: accepted, or refused with a message. */
  function ValidateModification(row: RangeRow, o: Oracles): Outcome<string> {
    Check(row, o).MapError(e => Message(e, o))
  }

  // ---------------------------------------------------------------------------------------
  // The rules a pool must satisfy, stated one by one and independently of the order above.

  /** Guard k of `validate_modification`, numbered from 0 in the order it checks them (the
      IPv6-broadcast guard is 12). */
  predicate GuardHolds(row: RangeRow, o: Oracles, k: nat)
    requires k < 14
  {
    var start := row.startIp;
    var ends := Values(row.endIp);
    var leases := Values(row.leaseDuration);
    var sets := Values(row.setTag);
    var masks := Values(row.netmask);
    var matches := Values(row.matchTags);
    match k
    case 0 => |row.name| <= 15
    case 1 => IsValidIp(o, start)
    case 2 => forall i :: 0 <= i < |ends| ==> IsValidIp(o, ends[i])
    case 3 => forall i :: 0 <= i < |leases| ==> leases[i] <= 0 || 2 <= leases[i] <= 65535
    case 4 => EndIp(row).Some? ==> o.ipType(start) == o.ipType(EndIp(row).value)
    case 5 => forall i :: 0 <= i < |sets| ==> |sets[i]| <= 15
    case 6 => forall i :: 0 <= i < |matches| ==> |matches[i]| <= 15
    case 7 => forall i :: 0 <= i < |masks| ==> o.isValidNetmask(masks[i])
    case 8 => EndIp(row).Some? && NetMask(row).Some? && o.ipType(start) == 0
              ==> o.isValidNet(start, EndIp(row).value, NetMask(row).value)
    case 9 => !(o.ipType(start) == 1 && NetMask(row).Some?)
    case 10 => o.ipType(start) == 0 && NetMask(row).Some? && BroadCast(row).Some?
               ==> o.isValidBroadcastAddr(start, NetMask(row).value, BroadCast(row).value)
    case 11 => BroadCast(row).Some? ==> NetMask(row).Some?
    case 12 => !(NetMask(row).Some? && BroadCast(row).Some? && o.ipType(start) == 1)
    case 13 => EndIp(row).Some? && PrefixLen(row).Some? ==> o.ipType(start) == 1
  }

  /** The guard each error reports. */
  function GuardOf(e: RangeError): (k: nat)
    ensures k < 14
  {
    match e
    case BadName(_) => 0
    case BadStartIp(_) => 1
    case BadEndIp(_) => 2
    case BadLease => 3
    case FamilyMismatch => 4
    case BadSetTag(_) => 5
    case BadMatchTags(_) => 6
    case BadNetmask(_) => 7
    case NotSameNet => 8
    case NetmaskForIpv6 => 9
    case BadBroadcast(_) => 10
    case BroadcastWithoutNetmask => 11
    case BroadcastForIpv6 => 12
    case PrefixForIpv4 => 13
  }

  /** Check order: a pool is accepted iff every rule holds; when it is refused, the error
      names a rule that fails and every rule `validate_modification` checks before it holds. */
  lemma FirstFailingGuardWins(row: RangeRow, o: Oracles)
    ensures Check(row, o).Pass? <==> forall k :: 0 <= k < 14 ==> GuardHolds(row, o, k)
    ensures Check(row, o).Fail? ==>
              var g := GuardOf(Check(row, o).error);
              !GuardHolds(row, o, g) && forall j :: 0 <= j < g ==> GuardHolds(row, o, j)
  {
    var r := Check(row, o);
    if r.Pass? {
      forall k | 0 <= k < 14 ensures GuardHolds(row, o, k) { PassHoldsGuard(row, o, k); }
    } else {
      FailBreaksGuard(row, o);
      forall j | 0 <= j < GuardOf(r.error) ensures GuardHolds(row, o, j) { FailHoldsEarlier(row, o, j); }
    }
  }

  /** The set-tag and match-tag guards are the loops' verdicts. */
  lemma TagGuards(row: RangeRow, o: Oracles)
    ensures FirstFailing(Values(row.setTag), IsValidTag).None? <==> GuardHolds(row, o, 5)
    ensures row.matchTags.Some? ==> (IsValidTags(row.matchTags.value) <==> GuardHolds(row, o, 6))
  {
  }

  /** An accepted pool meets every guard. */
  lemma PassHoldsGuard(row: RangeRow, o: Oracles, k: nat)
    requires Check(row, o).Pass? && k < 14
    ensures GuardHolds(row, o, k)
  {
    TagGuards(row, o);
  }

  /** A refused pool fails the guard its error names. */
  lemma FailBreaksGuard(row: RangeRow, o: Oracles)
    requires Check(row, o).Fail?
    ensures !GuardHolds(row, o, GuardOf(Check(row, o).error))
  {
    TagGuards(row, o);
    var g := GuardOf(Check(row, o).error);
    if !IsValidTag(row.name) { assert g == 0; }
    else if !IsValidIp(o, row.startIp) { assert g == 1; }
    else if FirstFailing(Values(row.endIp), ip => IsValidIp(o, ip)).Some? { assert g == 2; }
    else if FirstFailing(Values(row.leaseDuration), IsValidLeaseDuration).Some? { assert g == 3; }
    else { assert g >= 4; }
  }

  /** A refused pool meets every guard before the one its error names. */
  lemma FailHoldsEarlier(row: RangeRow, o: Oracles, j: nat)
    requires Check(row, o).Fail? && j < GuardOf(Check(row, o).error)
    ensures GuardHolds(row, o, j)
  {
    TagGuards(row, o);
  }

  /** The IPv6-broadcast message is never produced: its guard implies the earlier
      IPv6-netmask guard, which has already refused the pool. */
  lemma BroadcastForIpv6Unreachable(row: RangeRow, o: Oracles)
    ensures Check(row, o) != Fail(BroadcastForIpv6)
  {
  }

  /** A name over 15 characters is refused before any address is examined. */
  lemma LongNameRefusedFirst(row: RangeRow, o: Oracles)
    requires |row.name| > 15
    ensures ValidateModification(row, o) == Fail(row.name + " is invalid.")
  {
  }

  /** With the name and every address valid, a lease of 1 or above 65535 is refused with
      the lease message. */
  lemma BadLeaseRefused(row: RangeRow, o: Oracles, i: nat)
    requires |row.name| <= 15 && IsValidIp(o, row.startIp)
    requires forall j :: 0 <= j < |Values(row.endIp)| ==> IsValidIp(o, Values(row.endIp)[j])
    requires i < |Values(row.leaseDuration)|
    requires Values(row.leaseDuration)[i] == 1 || Values(row.leaseDuration)[i] > 65535
    ensures ValidateModification(row, o)
            == Fail("Lease duration should be 0 for infinite or between 2-65535.")
  {
    FirstFailingGuardWins(row, o);
  }

  /** Start and last end address of different families are refused, once the name,
      addresses and leases have passed. */
  lemma FamilyMismatchRefused(row: RangeRow, o: Oracles)
    requires GuardHolds(row, o, 0) && GuardHolds(row, o, 1) && GuardHolds(row, o, 2) && GuardHolds(row, o, 3)
    requires EndIp(row).Some? && o.ipType(row.startIp) != o.ipType(EndIp(row).value)
    ensures ValidateModification(row, o) == Fail("Invalid IP address range")
  {
    FirstFailingGuardWins(row, o);
  }

  /** An IPv6 start with any netmask is refused, once the earlier guards have passed. */
  lemma NetmaskForIpv6Refused(row: RangeRow, o: Oracles)
    requires forall k :: 0 <= k < 9 ==> GuardHolds(row, o, k)
    requires o.ipType(row.startIp) == 1 && NetMask(row).Some?
    ensures ValidateModification(row, o) == Fail("Error : netmask configuration not allowed for IPv6")
  {
    FirstFailingGuardWins(row, o);
  }

  /** A broadcast address without a netmask is refused, once the earlier guards have passed. */
  lemma BroadcastWithoutNetmaskRefused(row: RangeRow, o: Oracles)
    requires forall k :: 0 <= k < 11 ==> GuardHolds(row, o, k)
    requires BroadCast(row).Some? && Values(row.netmask) == []
    ensures ValidateModification(row, o)
            == Fail("Error : netmask must be specified before broadcast address")
  {
    FirstFailingGuardWins(row, o);
  }

  /** A prefix length with an end address and a start that is not IPv6 is refused, once the
      earlier guards have passed. */
  lemma PrefixForIpv4Refused(row: RangeRow, o: Oracles)
    requires forall k :: 0 <= k < 13 ==> GuardHolds(row, o, k)
    requires EndIp(row).Some? && PrefixLen(row).Some? && o.ipType(row.startIp) != 1
    ensures ValidateModification(row, o)
            == Fail("Error: prefix length configuration not allowed for IPv4")
  {
    FirstFailingGuardWins(row, o);
  }
}

=== FILE: range_check_old.dfy ===
/** The older `DHCPSrvRangeValidator` of opsplugins/DHCPSrv_Range.py. It hands the end
    address and lease duration columns to scalar predicates, so it is modelled against the
    scalar-column schema it was written for; it checks nothing else. */
module RangeCheckOld {
  import opened Wrappers
  import opened Rows
  import FieldChecks

  /** A pool row as the older schema shapes it. */
  datatype OldRangeRow = OldRangeRow(
    name: string,
    startIp: string,
    endIp: Option<string>,
    leaseDuration: Option<int>,
    setTag: Column<string>,
    matchTags: Column<string>)

  /** The class's own `is_valid_lease_duration`. */
  predicate IsValidLeaseDuration(d: int) {
    if d == 1 || d > 65535 then false else true
  }

  function ValidateModification(row: OldRangeRow, o: Oracles): Outcome<string> {
    if !IsValidIp(o, row.startIp) then Fail(row.startIp + " is invalid.")
    else if row.endIp.Some? && !IsValidIp(o, row.endIp.value) then Fail(row.endIp.value + " is invalid.")
    else if row.leaseDuration.Some? && !IsValidLeaseDuration(row.leaseDuration.value)
    then Fail("Lease duration should be 0 for infinite or between 2-65535.")
    else Pass
  }

  /** The class's lease check refuses exactly 1 and values above 65535, like the shared helper. */
  lemma LeaseChecksAgree(d: int)
    ensures !IsValidLeaseDuration(d) <==> d == 1 || d > 65535
    ensures IsValidLeaseDuration(d) == FieldChecks.IsValidLeaseDuration(d)
  {
  }

  /** The verdicts in order: start, then a present end, then a present lease. */
  lemma Verdicts(row: OldRangeRow, o: Oracles)
    ensures !IsValidIp(o, row.startIp) ==> ValidateModification(row, o) == Fail(row.startIp + " is invalid.")
    ensures IsValidIp(o, row.startIp) && row.endIp.Some? && !IsValidIp(o, row.endIp.value)
            ==> ValidateModification(row, o) == Fail(row.endIp.value + " is invalid.")
    ensures IsValidIp(o, row.startIp) && (row.endIp.None? || IsValidIp(o, row.endIp.value))
            && row.leaseDuration.Some? && (row.leaseDuration.value == 1 || row.leaseDuration.value > 65535)
            ==> ValidateModification(row, o) == Fail("Lease duration should be 0 for infinite or between 2-65535.")
  {
  }

  /** No other column is examined: a valid start with a valid or absent end and lease is
      accepted whatever the name and tags hold, and rows that differ only in those columns
      get the same verdict. */
  lemma OnlyAddressesAndLease(row: OldRangeRow, other: OldRangeRow, o: Oracles)
    requires other.startIp == row.startIp && other.endIp == row.endIp && other.leaseDuration == row.leaseDuration
    ensures ValidateModification(row, o) == ValidateModification(other, o)
    ensures IsValidIp(o, row.startIp) && (row.endIp.None? || IsValidIp(o, row.endIp.value))
            && (row.leaseDuration.None? || row.leaseDuration.value == 0 || 2 <= row.leaseDuration.value <= 65535)
            ==> ValidateModification(row, o) == Pass
  {
  }
}

=== FILE: rows.dfy ===
/** The configuration rows the validators and the command builder read, and the helpers
    the program calls but that are not part of this model. */
module Rows {
  import opened Wrappers
  import IpAddress

  /** A column as `hasattr` plus `get_column_data_from_row` see it: None when the row does
      not carry the column, otherwise the list of its values (an optional OVSDB column holds
      zero or one value, a set column any number). */
  type Column<T> = Option<seq<T>>

  /** The values of a column; an absent column iterates like an empty one. */
  function Values<T>(c: Column<T>): seq<T> { c.GetOr([]) }

  /** A row of DHCPSrv_Range (an address pool). */
  datatype RangeRow = RangeRow(
    name: string,
    startIp: string,
    endIp: Column<string>,
    leaseDuration: Column<int>,
    setTag: Column<string>,
    matchTags: Column<string>,
    netmask: Column<string>,
    broadcast: Column<string>,
    prefixLen: Column<int>,
    isStatic: Column<bool>)

  /** A row of DHCPSrv_Static_Host (a reservation). */
  datatype StaticHostRow = StaticHostRow(
    ipAddress: string,
    macAddresses: Column<string>,
    setTags: Column<string>,
    clientHostname: Column<string>,
    clientId: Column<string>,
    leaseDuration: Column<int>)

  /** A row of DHCPSrv_Option (a vendor option binding). */
  datatype OptionRow = OptionRow(
    optionName: Column<string>,
    optionNumber: Column<int>,
    optionValue: Column<string>,
    ipv6: Column<bool>,
    matchTags: Column<string>)

  /** A row of DHCPSrv_Match. */
  datatype MatchRow = MatchRow(
    setTag: string,
    optionName: Column<string>,
    optionNumber: Column<int>,
    optionValue: Column<string>)

  /** A dictionary column, as the list of its items in iteration order. */
  type Dict = seq<(string, string)>

  /** A row of DHCP_Server; only its `bootp` dictionary (tag to boot file) matters here. */
  datatype DhcpServerRow = DhcpServerRow(bootp: Option<Dict>)

  /** A row of System: the configuration generation and the `other_config` dictionary. */
  datatype SystemRow = SystemRow(curCfg: int, otherConfig: Option<Dict>)

  /** A snapshot of the tables, each in the order the database iterates it. */
  datatype Snapshot = Snapshot(
    ranges: seq<RangeRow>,
    hosts: seq<StaticHostRow>,
    options: seq<OptionRow>,
    matches: seq<MatchRow>,
    servers: seq<DhcpServerRow>,
    systems: seq<SystemRow>)

  /** Helpers the validators call whose definitions are not part of this model:
      the text parser behind `socket.inet_pton`, `ipaddress.ip_type` (0 for IPv4, 1 for
      IPv6), `ipaddress.is_valid_netmask`, `ipaddress.is_valid_net`,
      `ipaddress.is_valid_broadcast_addr`, `macaddress.is_valid_mac_address`,
      `os.path.isdir`, and the text `"%s" % list` gives for a list of strings. */
  datatype Oracles = Oracles(
    parse: string -> IpAddress.ParsedAddr,
    ipType: string -> int,
    isValidNetmask: string -> bool,
    isValidNet: (string, string, string) -> bool,
    isValidBroadcastAddr: (string, string, string) -> bool,
    isValidMacAddress: string -> bool,
    isDir: string -> bool,
    showList: seq<string> -> string)

  /** `ipaddress.is_valid_ip_address` on an address text. */
  predicate IsValidIp(o: Oracles, ip: string) {
    IpAddress.IsValidIpAddress(o.parse(ip))
  }
}

=== FILE: static_host_check.dfy ===
/** `DHCPSrvStaticHostValidator.validate_modification` of opsplugins/dhcpsrv_static_host.py:
    the checks run when a reservation is written, first failing guard first. */
module StaticHostCheck {
  import opened Wrappers
  import opened Rows
  import opened FieldChecks

  datatype HostError =
    | BadIp(ip: string)
    | BadMacs
    | BadSetTags(tags: seq<string>)
    | BadHostname(hostname: string)
    | BadClientId(clientId: string)
    | NoIdentifier
    | BadLease

  function Message(e: HostError, o: Oracles): string {
    match e
    case BadIp(ip) => ip + " is an invalid IP address."
    case BadMacs => "Invalid MAC addresses."
    case BadSetTags(ts) => o.showList(ts) + " is invalid."
    case BadHostname(h) => h + " is invalid."
    case BadClientId(c) => c + " is invalid."
    case NoIdentifier => "Any one of MAC address or hostname or client-id must be specified"
    case BadLease => LeaseMessage
  }

  /** The validator, guard by guard in the order `validate_modification` runs them. The presence test looks at
      whether the columns are carried at all, not at whether they are empty. */
  function Check(row: StaticHostRow, o: Oracles): Outcome<HostError> {
    var badHostname := FirstFailing(Values(row.clientHostname), IsValidTag);
    var badClientId := FirstFailing(Values(row.clientId), IsValidTag);
    var badLease := FirstFailing(Values(row.leaseDuration), IsValidLeaseDuration);
    if !IsValidIp(o, row.ipAddress) then Fail(BadIp(row.ipAddress))
    else if row.macAddresses.Some? && !IsValidMacAddresses(row.macAddresses.value, o.isValidMacAddress) then Fail(BadMacs)
    else if row.setTags.Some? && !IsValidTags(row.setTags.value) then Fail(BadSetTags(row.setTags.value))
    else if badHostname.Some? then Fail(BadHostname(badHostname.value))
    else if badClientId.Some? then Fail(BadClientId(badClientId.value))
    else if row.macAddresses.None? && row.clientHostname.None? && row.clientId.None? then Fail(NoIdentifier)
    else if badLease.Some? then Fail(BadLease)
    else Pass
  }

  function ValidateModification(row: StaticHostRow, o: Oracles): Outcome<string> {
    Check(row, o).MapError(e => Message(e, o))
  }

  /** Guard k of `validate_modification`, numbered from 0 in the order it checks them. */
  predicate GuardHolds(row: StaticHostRow, o: Oracles, k: nat)
    requires k < 7
  {
    var macs := Values(row.macAddresses);
    var tags := Values(row.setTags);
    var names := Values(row.clientHostname);
    var ids := Values(row.clientId);
    var leases := Values(row.leaseDuration);
    match k
    case 0 => IsValidIp(o, row.ipAddress)
    case 1 => forall i :: 0 <= i < |macs| ==> o.isValidMacAddress(macs[i])
    case 2 => forall i :: 0 <= i < |tags| ==> |tags[i]| <= 15
    case 3 => forall i :: 0 <= i < |names| ==> |names[i]| <= 15
    case 4 => forall i :: 0 <= i < |ids| ==> |ids[i]| <= 15
    case 5 => row.macAddresses.Some? || row.clientHostname.Some? || row.clientId.Some?
    case 6 => forall i :: 0 <= i < |leases| ==> leases[i] <= 0 || 2 <= leases[i] <= 65535
  }

  function GuardOf(e: HostError): (k: nat)
    ensures k < 7
  {
    match e
    case BadIp(_) => 0
    case BadMacs => 1
    case BadSetTags(_) => 2
    case BadHostname(_) => 3
    case BadClientId(_) => 4
    case NoIdentifier => 5
    case BadLease => 6
  }

  /** Check order: a reservation is accepted iff every rule holds; when it is refused, the
      error names a rule that fails and every earlier rule holds. */
  lemma FirstFailingGuardWins(row: StaticHostRow, o: Oracles)
    ensures Check(row, o).Pass? <==> forall k :: 0 <= k < 7 ==> GuardHolds(row, o, k)
    ensures Check(row, o).Fail? ==>
              var g := GuardOf(Check(row, o).error);
              !GuardHolds(row, o, g) && forall j :: 0 <= j < g ==> GuardHolds(row, o, j)
  {
    var r := Check(row, o);
    if r.Pass? {
      forall k | 0 <= k < 7 ensures GuardHolds(row, o, k) { }
    } else {
      var g := GuardOf(r.error);
      forall j | 0 <= j < g ensures GuardHolds(row, o, j) { }
      assert !GuardHolds(row, o, g);
    }
  }

  /** An invalid IP address is refused before anything else is looked at. */
  lemma InvalidIpRefusedFirst(row: StaticHostRow, o: Oracles)
    requires !IsValidIp(o, row.ipAddress)
    ensures ValidateModification(row, o) == Fail(row.ipAddress + " is an invalid IP address.")
  {
  }

  /** A present MAC list with a malformed entry is refused once the IP address passed. */
  lemma BadMacRefused(row: StaticHostRow, o: Oracles, i: nat)
    requires IsValidIp(o, row.ipAddress)
    requires row.macAddresses.Some? && i < |row.macAddresses.value|
    requires !o.isValidMacAddress(row.macAddresses.value[i])
    ensures ValidateModification(row, o) == Fail("Invalid MAC addresses.")
  {
  }

  /** An over-long set tag is refused, naming the whole tag list. */
  lemma LongSetTagRefused(row: StaticHostRow, o: Oracles, i: nat)
    requires GuardHolds(row, o, 0) && GuardHolds(row, o, 1)
    requires row.setTags.Some? && i < |row.setTags.value| && |row.setTags.value[i]| > 15
    ensures ValidateModification(row, o) == Fail(o.showList(row.setTags.value) + " is invalid.")
  {
    assert !IsValidTags(row.setTags.value);
    if row.macAddresses.Some? {
      assert Values(row.macAddresses) == row.macAddresses.value;
    }
  }

  /** The first over-long hostname is reported, whatever the client ids hold: hostnames
      are checked before client ids. */
  lemma HostnameBeforeClientId(row: StaticHostRow, o: Oracles, i: nat)
    requires GuardHolds(row, o, 0) && GuardHolds(row, o, 1) && GuardHolds(row, o, 2)
    requires i < |Values(row.clientHostname)| && |Values(row.clientHostname)[i]| > 15
    requires forall j :: 0 <= j < i ==> |Values(row.clientHostname)[j]| <= 15
    ensures ValidateModification(row, o) == Fail(Values(row.clientHostname)[i] + " is invalid.")
  {
    FirstFailingGuardWins(row, o);
    var names := Values(row.clientHostname);
    var bad := FirstFailing(names, IsValidTag);
    var k :| 0 <= k < |names| && names[k] == bad.value && !IsValidTag(names[k])
             && forall j :: 0 <= j < k ==> IsValidTag(names[j]);
    assert k == i;
  }

  /** A reservation naming no MAC, hostname or client id is refused, once the other
      fields have passed. */
  lemma NoIdentifierRefused(row: StaticHostRow, o: Oracles)
    requires IsValidIp(o, row.ipAddress)
    requires GuardHolds(row, o, 2)
    requires row.macAddresses.None? && row.clientHostname.None? && row.clientId.None?
    ensures ValidateModification(row, o)
            == Fail("Any one of MAC address or hostname or client-id must be specified")
  {
    FirstFailingGuardWins(row, o);
  }

  /** A bad lease is reported only after the identifier-presence check has passed. */
  lemma BadLeaseAfterPresence(row: StaticHostRow, o: Oracles, i: nat)
    requires forall k :: 0 <= k < 6 ==> GuardHolds(row, o, k)
    requires i < |Values(row.leaseDuration)|
    requires Values(row.leaseDuration)[i] == 1 || Values(row.leaseDuration)[i] > 65535
    ensures ValidateModification(row, o)
            == Fail("Lease duration should be 0 for infinite or between 2-65535.")
  {
    FirstFailingGuardWins(row, o);
  }
}

=== FILE: static_host_check_old.dfy ===
/** The older `DHCPSrvStaticHostValidator` of opsplugins/DHCPSrv_Static_Host.py: it checks
    the IP address and the MAC list only. */
module StaticHostCheckOld {
  import opened Wrappers
  import opened Rows
  import FieldChecks

  /** The class's own `is_valid_mac_addresses`, a copy of the shared helper's loop. */
  predicate IsValidMacAddresses(macs: seq<string>, isValidMac: string -> bool)
    ensures IsValidMacAddresses(macs, isValidMac) <==> forall i :: 0 <= i < |macs| ==> isValidMac(macs[i])
  {
    if |macs| == 0 then true
    else if !isValidMac(macs[0]) then false
    else IsValidMacAddresses(macs[1..], isValidMac)
  }

  function ValidateModification(row: StaticHostRow, o: Oracles): Outcome<string> {
    if !IsValidIp(o, row.ipAddress) then Fail(row.ipAddress + " is an invalid IP address.")
    else if row.macAddresses.Some? && !IsValidMacAddresses(row.macAddresses.value, o.isValidMacAddress)
    then Fail("Invalid MAC addresses.")
    else Pass
  }

  /** The class's MAC check and the shared one agree on every list. */
  lemma MacChecksAgree(macs: seq<string>, isValidMac: string -> bool)
    ensures IsValidMacAddresses(macs, isValidMac) == FieldChecks.IsValidMacAddresses(macs, isValidMac)
  {
  }

  /** The verdicts: an invalid IP is reported first; then a bad MAC list; nothing else is
      examined, so a valid IP with no MAC column is accepted (no identifier is required). */
  lemma Verdicts(row: StaticHostRow, o: Oracles)
    ensures !IsValidIp(o, row.ipAddress) ==>
              ValidateModification(row, o) == Fail(row.ipAddress + " is an invalid IP address.")
    ensures IsValidIp(o, row.ipAddress) && row.macAddresses.Some?
            && (exists i :: 0 <= i < |row.macAddresses.value| && !o.isValidMacAddress(row.macAddresses.value[i]))
            ==> ValidateModification(row, o) == Fail("Invalid MAC addresses.")
    ensures IsValidIp(o, row.ipAddress) && row.macAddresses.None? ==> ValidateModification(row, o) == Pass
  {
  }
}

=== FILE: supervisor.dfy ===
/** The reconciliation loop of ops_dhcp_tftp.py: while dnsmasq has not been started the
    daemon polls the database and starts it once the system is configured; afterwards every
    change of the database's sequence number restarts dnsmasq with a freshly built command.
    Starting, killing and the lease cleanup are actions the daemon asks for; whether the
    operating system carries them out is not modelled. */
module Supervisor {
  import opened Wrappers
  import opened Rows
  import CommandLine

  /** What the daemon asks the operating system to do. */
  datatype Action =
    | ClearLeases            // runs `/usr/bin/dhcp_leases clear`
    | Spawn(command: string) // starts dnsmasq with this command line
    | KillTracked            // kills the dnsmasq process it started last
    | KillStray              // kills every process whose `ps -A` line names dnsmasq

  /** Starting: the start-up loop of main; Serving: the steady loop; Stopped: left after an
      exit request; Crashed: an exception left main. */
  datatype Phase = Starting | Serving | Stopped | Crashed

  /** The daemon's globals: `seqno`, `dnsmasq_started`, `dhcp_range_config`, whether
      `dnsmasq_process` holds a process, and whether an `exit` request waits unserved on the
      control socket. */
  datatype Daemon = Daemon(phase: Phase, seqno: int, started: bool, rangeConfig: bool, tracked: bool,
                           exitPending: bool)

  const Initial: Daemon := Daemon(Starting, 0, false, false, false, false)

  /** What one poll shows: the database's change counter after `idl.run()` and its tables. */
  datatype View = View(changeSeqno: int, snap: Snapshot)

  /** An `exit` request on the control socket, or one poll of the database. */
  datatype Event = ExitRequest | Poll(view: View)

  /** `db_get_system_status`: the first System row with a non-zero cur_cfg makes the system
      configured. Its inner `cur_cfg == 0` test cannot succeed there. */
  function SystemStatus(systems: seq<SystemRow>): (r: bool)
    ensures r <==> exists i :: 0 <= i < |systems| && systems[i].curCfg != 0
  {
    if |systems| == 0 then false
    else if systems[0].curCfg != 0 then true
    else
      var rest := SystemStatus(systems[1..]);
      assert rest <==> exists i :: 1 <= i < |systems| && systems[i].curCfg != 0 by {
        if rest {
          var j :| 0 <= j < |systems[1..]| && systems[1..][j].curCfg != 0;
          assert systems[j + 1] == systems[1..][j];
        }
        if exists i :: 1 <= i < |systems| && systems[i].curCfg != 0 {
          var i :| 1 <= i < |systems| && systems[i].curCfg != 0;
          assert systems[1..][i - 1] == systems[i];
        }
      }
      rest
  }

  /** `dhcp_tftp_get_config` followed by `dnsmasq_start_process`. The pool flag is sticky:
      once a pool has been seen it stays set. When no pool has ever been seen and dnsmasq has
      never been started, the stale leases are cleared; this happens after the pools are
      read and before the rest of the command is built, so it happens even when the build
      then fails. A failing build is an exception that ends the daemon. */
  function StartDnsmasq(d: Daemon, snap: Snapshot): (r: (Daemon, seq<Action>))
  {
    var rangeConfig := d.rangeConfig || |snap.ranges| > 0;
    var clear := if !rangeConfig && !d.started then [ClearLeases] else [];
    match CommandLine.BuildCommand(snap)
    case Err(_) => (d.(rangeConfig := rangeConfig, phase := Crashed), clear)
    case Ok(command) => (d.(rangeConfig := rangeConfig, tracked := true), clear + [Spawn(command)])
  }

  /** `dnsmasq_run`: a changed sequence number is adopted at once; dnsmasq is started only if
      the system is configured, and then counts as started. */
  function DnsmasqRun(d: Daemon, v: View): (r: (Daemon, seq<Action>))
  {
    if d.seqno == v.changeSeqno then (d, [])
    else
      var d1 := d.(seqno := v.changeSeqno);
      if !SystemStatus(v.snap.systems) then (d1, [])
      else
        var (d2, actions) := StartDnsmasq(d1, v.snap);
        if d2.phase == Crashed then (d2, actions) else (d2.(started := true, phase := Serving), actions)
  }

  /** `dnsmasq_restart`: kill the tracked process, kill every stray dnsmasq, then build and
      start again. */
  function Restart(d: Daemon, snap: Snapshot): (r: (Daemon, seq<Action>))
  {
    var kills := (if d.tracked then [KillTracked] else []) + [KillStray];
    var (d1, actions) := StartDnsmasq(d, snap);
    (d1, kills + actions)
  }

  /** One event. The control socket exists before the start-up loop but is served only in
      the steady loop, so an exit request during start-up waits; the steady loop serves it
      first, before it looks at the database, and ends the daemon. A poll in the steady loop
      restarts dnsmasq exactly when the sequence number moved, and then adopts it. */
  function Step(d: Daemon, e: Event): (r: (Daemon, seq<Action>))
  {
    match d.phase
    case Stopped => (d, [])
    case Crashed => (d, [])
    case Starting =>
      (match e
       case ExitRequest => (d.(exitPending := true), [])
       case Poll(v) =>
         var (d1, actions) := DnsmasqRun(d, v);
         if d1.phase == Serving && d1.exitPending then (d1.(phase := Stopped), actions)
         else (d1, actions))
    case Serving =>
      match e
      case ExitRequest => (d.(phase := Stopped), [])
      case Poll(v) =>
        if d.seqno == v.changeSeqno then (d, [])
        else
          var (d1, actions) := Restart(d, v.snap);
          (d1.(seqno := v.changeSeqno), actions)
  }

  /** A sequence of events, with the actions they ask for in order. */
  function Run(d: Daemon, events: seq<Event>): (r: (Daemon, seq<Action>))
    decreases |events|
  {
    if |events| == 0 then (d, [])
    else
      var (d1, a1) := Step(d, events[0]);
      var (d2, a2) := Run(d1, events[1..]);
      (d2, a1 + a2)
  }

  // ---------------------------------------------------------------------------------------
  // Properties

  /** What every reachable state satisfies: the start-up loop runs until dnsmasq has been
      started, and in the steady loop a started process is tracked. */
  predicate Inv(d: Daemon) {
    && (d.phase == Starting ==> !d.started)
    && (d.phase == Serving ==> d.started && d.tracked)
    && (d.started ==> d.tracked)
  }

  lemma InitialInv()
    ensures Inv(Initial) && Initial.phase == Starting && !Initial.started
  {
  }

  lemma StepInv(d: Daemon, e: Event)
    requires Inv(d)
    ensures Inv(Step(d, e).0)
    ensures d.started ==> Step(d, e).0.started
  {
  }

  lemma {:induction false} RunInv(d: Daemon, events: seq<Event>)
    requires Inv(d)
    ensures Inv(Run(d, events).0)
    ensures d.started ==> Run(d, events).0.started
    decreases |events|
  {
    if |events| > 0 {
      StepInv(d, events[0]);
      RunInv(Step(d, events[0]).0, events[1..]);
    }
  }

  /** `dnsmasq_run` adopts a new sequence number whether or not the system is configured; an
      unconfigured system gets nothing else, and an unchanged number changes nothing. */
  lemma RunAdoptsSeqno(d: Daemon, v: View)
    requires d.phase == Starting
    ensures d.seqno == v.changeSeqno ==> DnsmasqRun(d, v) == (d, [])
    ensures d.seqno != v.changeSeqno ==> DnsmasqRun(d, v).0.seqno == v.changeSeqno
    ensures d.seqno != v.changeSeqno && !SystemStatus(v.snap.systems) ==>
              DnsmasqRun(d, v) == (d.(seqno := v.changeSeqno), [])
  {
  }

  /** dnsmasq is started, and the daemon counts it as started, only when the sequence number
      moved and the system is configured (and the command builds). */
  lemma RunStartsOnlyIfConfigured(d: Daemon, v: View, command: string)
    requires Inv(d) && d.phase == Starting
    ensures Spawn(command) in DnsmasqRun(d, v).1 <==>
              d.seqno != v.changeSeqno && SystemStatus(v.snap.systems)
              && CommandLine.BuildCommand(v.snap) == Ok(command)
    ensures DnsmasqRun(d, v).0.started <==>
              d.seqno != v.changeSeqno && SystemStatus(v.snap.systems) && CommandLine.BuildCommand(v.snap).Ok?
  {
  }

  /** The start-up cleanup: dnsmasq's first start clears the leases exactly when no pool
      has been seen yet, not even in this snapshot. */
  lemma StartupClear(d: Daemon, v: View)
    requires Inv(d) && d.phase == Starting
    ensures ClearLeases in DnsmasqRun(d, v).1 <==>
              d.seqno != v.changeSeqno && SystemStatus(v.snap.systems) && !d.rangeConfig && |v.snap.ranges| == 0
  {
  }

  /** The steady loop restarts exactly when the sequence number moved: it kills the tracked
      process and every stray dnsmasq first and starts one new dnsmasq when the command
      builds; afterwards its sequence number is the database's. */
  lemma SteadyRestartIff(d: Daemon, v: View)
    requires Inv(d) && d.phase == Serving
    ensures var (d1, actions) := Step(d, Poll(v));
            && d1.seqno == v.changeSeqno
            && (actions != [] <==> d.seqno != v.changeSeqno)
            && (d.seqno != v.changeSeqno ==> actions[..2] == [KillTracked, KillStray])
            && (d.seqno != v.changeSeqno && CommandLine.BuildCommand(v.snap).Ok? ==>
                  actions == [KillTracked, KillStray, Spawn(CommandLine.BuildCommand(v.snap).value)]
                  && d1.phase == Serving)
            && (d.seqno != v.changeSeqno && CommandLine.BuildCommand(v.snap).Err? ==> d1.phase == Crashed)
  {
  }

  /** An exit request during start-up is kept, not acted on: the daemon goes on polling, and
      once a poll starts dnsmasq it stops instead of entering the steady loop, with dnsmasq
      started and no further action. Without a pending request a start enters the steady
      loop. */
  lemma StartupExitDeferred(d: Daemon, v: View)
    requires Inv(d) && d.phase == Starting
    ensures Step(d, ExitRequest) == (d.(exitPending := true), [])
    ensures Step(d, Poll(v)).1 == DnsmasqRun(d, v).1
    ensures DnsmasqRun(d, v).0.started ==>
              Step(d, Poll(v)).0.started
              && (Step(d, Poll(v)).0.phase == Stopped <==> d.exitPending)
              && (Step(d, Poll(v)).0.phase == Serving <==> !d.exitPending)
    ensures !DnsmasqRun(d, v).0.started ==> Step(d, Poll(v)).0.phase != Stopped
  {
  }

  /** A stopped or crashed daemon stays so and asks for nothing more. */
  lemma {:induction false} HaltedStaysHalted(d: Daemon, events: seq<Event>)
    requires d.phase == Stopped || d.phase == Crashed
    ensures Run(d, events) == (d, [])
    decreases |events|
  {
    if |events| > 0 {
      assert Step(d, events[0]) == (d, []);
      HaltedStaysHalted(d, events[1..]);
      assert Run(d, events).1 == [] + [];
      assert Run(d, events).1 == [];
    }
  }

  /** Once dnsmasq has been started the leases are never cleared again, whatever happens. */
  lemma {:induction false} NoClearAfterStart(d: Daemon, events: seq<Event>)
    requires Inv(d) && d.started
    ensures ClearLeases !in Run(d, events).1
    decreases |events|
  {
    if |events| > 0 {
      var (d1, a1) := Step(d, events[0]);
      StepInv(d, events[0]);
      assert ClearLeases !in a1;
      NoClearAfterStart(d1, events[1..]);
    }
  }

  /** An unchanged database restarts nothing: polls that show the daemon's own sequence
      number leave it as it is. */
  lemma {:induction false} QuietPollsDoNothing(d: Daemon, events: seq<Event>)
    requires d.phase == Serving || d.phase == Starting
    requires forall i :: 0 <= i < |events| ==> events[i].Poll? && events[i].view.changeSeqno == d.seqno
    ensures Run(d, events) == (d, [])
    decreases |events|
  {
    if |events| > 0 {
      var v := events[0].view;
      assert events[0] == Poll(v) && v.changeSeqno == d.seqno;
      assert d.phase == Starting ==> DnsmasqRun(d, v) == (d, []);
      assert Step(d, events[0]) == (d, []);
      assert forall i :: 0 <= i < |events[1..]| ==> events[1..][i] == events[i + 1];
      QuietPollsDoNothing(d, events[1..]);
      var (d1, a1) := Step(d, events[0]);
      assert d1 == d && a1 == [];
      assert Run(d1, events[1..]) == (d, []);
      assert a1 + Run(d1, events[1..]).1 == [];
      assert Run(d, events) == (Run(d1, events[1..]).0, a1 + Run(d1, events[1..]).1);
    }
  }
}

=== FILE: tftp_check.dfy ===
/** `DhcpTftpServerValidator` of opsplugins/tftp_server.py: the TFTP root in the System
    row's `other_config` must be an absolute path naming a directory. The file system is
    consulted through `isDir` (`os.path.isdir`). */
module TftpCheck {
  import opened Wrappers
  import opened Rows

  /** `os.path.isabs` on POSIX: the path starts with a slash. */
  predicate IsAbs(path: string) { |path| > 0 && path[0] == '/' }

  /** `is_valid_tftp_server_path`. */
  predicate IsValidTftpServerPath(path: string, isDir: string -> bool) {
    IsAbs(path) && isDir(path)
  }

  function ValidateModification(row: SystemRow, isDir: string -> bool): Outcome<string> {
    if row.otherConfig.None? then Pass
    else
      var path := Lookup(row.otherConfig.value, "tftp_server_path");
      if path.Some? && !IsValidTftpServerPath(path.value, isDir)
      then Fail("The directory " + path.value + " does not exist. Please configure a valid absolute path.")
      else Pass
  }

  /** A row without `other_config`, or without the `tftp_server_path` key, is accepted. */
  lemma NoPathAccepted(row: SystemRow, isDir: string -> bool)
    requires row.otherConfig.None? || Lookup(row.otherConfig.value, "tftp_server_path").None?
    ensures ValidateModification(row, isDir) == Pass
  {
  }

  /** A path that does not start with '/' is refused whatever the file system holds, with
      the message naming the path. */
  lemma RelativePathRefused(row: SystemRow, path: string)
    requires row.otherConfig.Some? && Lookup(row.otherConfig.value, "tftp_server_path") == Some(path)
    requires |path| == 0 || path[0] != '/'
    ensures forall isDir: string -> bool :: ValidateModification(row, isDir)
              == Fail("The directory " + path + " does not exist. Please configure a valid absolute path.")
  {
  }

  /** An absolute path naming a directory is accepted; an absolute path that names none is
      refused. */
  lemma AbsolutePathVerdict(row: SystemRow, path: string, isDir: string -> bool)
    requires row.otherConfig.Some? && Lookup(row.otherConfig.value, "tftp_server_path") == Some(path)
    requires |path| > 0 && path[0] == '/'
    ensures ValidateModification(row, isDir) == Pass <==> isDir(path)
  {
  }
}

=== FILE: wrappers.dfy ===
/** Failure-compatible wrappers shared by every module of the model. */
module Wrappers {

  /** An optional value: a missing OVSDB column, an unset dictionary key, Python's None. */
  datatype Option<+T> = None | Some(value: T) {
    function GetOr(default: T): T {
      match this
      case Some(v) => v
      case None => default
    }
  }

  /** A computation that either yields a value or fails with an error. */
  datatype Result<+T, +E> = Ok(value: T) | Err(error: E) {
    predicate IsFailure() { Err? }

    function PropagateFailure<U>(): Result<U, E>
      requires Err?
    {
      Err(error)
    }

    function Extract(): T
      requires Ok?
    {
      value
    }
  }

  /** A check that either passes or fails with an error; a validator's verdict. */
  datatype Outcome<+E> = Pass | Fail(error: E) {
    function MapError<F>(f: E -> F): Outcome<F> {
      match this
      case Pass => Pass
      case Fail(e) => Fail(f(e))
    }
  }

  /** The last element of a list, as Python leaves a loop variable after `for x in xs`. */
  function Last<T>(xs: seq<T>): (r: Option<T>)
    ensures r.None? <==> |xs| == 0
    ensures r.Some? ==> r.value == xs[|xs| - 1]
  {
    if |xs| == 0 then None else Some(xs[|xs| - 1])
  }

  /** The first element of `xs` that `ok` rejects: the element a `for` loop that raises on
      the first bad entry would report. */
  function FirstFailing<T>(xs: seq<T>, ok: T -> bool): (r: Option<T>)
    ensures r.None? <==> forall i :: 0 <= i < |xs| ==> ok(xs[i])
    ensures r.Some? ==> exists k :: 0 <= k < |xs| && xs[k] == r.value && !ok(xs[k])
                                   && forall j :: 0 <= j < k ==> ok(xs[j])
  {
    if |xs| == 0 then None
    else if !ok(xs[0]) then Some(xs[0])
    else
      var r := FirstFailing(xs[1..], ok);
      assert r.Some? ==> exists k :: 0 <= k < |xs| && xs[k] == r.value && !ok(xs[k])
                                     && forall j :: 0 <= j < k ==> ok(xs[j]) by {
        if r.Some? {
          var k :| 0 <= k < |xs[1..]| && xs[1..][k] == r.value && !ok(xs[1..][k])
                   && forall j :: 0 <= j < k ==> ok(xs[1..][j]);
          assert xs[k + 1] == r.value && forall j :: 0 <= j < k + 1 ==> ok(xs[j]);
        }
      }
      assert r.None? ==> forall i :: 0 <= i < |xs| ==> ok(xs[i]) by {
        if r.None? {
          forall i | 0 <= i < |xs| ensures ok(xs[i]) {
            if i > 0 { assert xs[i] == xs[1..][i - 1]; }
          }
        }
      }
      r
  }

  /** The value of the first pair whose key is `key`, as `dict.get(key, None)` returns. */
  function Lookup<K(==), V>(items: seq<(K, V)>, key: K): (r: Option<V>)
    ensures r.None? <==> forall i :: 0 <= i < |items| ==> items[i].0 != key
    ensures r.Some? ==> (key, r.value) in items
  {
    if |items| == 0 then None
    else if items[0].0 == key then Some(items[0].1)
    else
      var r := Lookup(items[1..], key);
      assert r.None? ==> forall i :: 0 <= i < |items| ==> items[i].0 != key by {
        if r.None? {
          forall i | 0 <= i < |items| ensures items[i].0 != key {
            if i > 0 { assert items[i] == items[1..][i - 1]; }
          }
        }
      }
      assert r.Some? ==> (key, r.value) in items by {
        if r.Some? { assert (key, r.value) in items[1..]; }
      }
      r
  }

  /** Concatenation of a list of strings. */
  function Concat(parts: seq<string>): (r: string)
    ensures |parts| == 0 ==> r == ""
  {
    if |parts| == 0 then "" else parts[0] + Concat(parts[1..])
  }
}
